=== FILE: README.md ===
# Tattoo studio site — verified model of its pure rules

The site is a marketing and administration front end for a tattoo studio.
It is React components wired to Firebase. Inside those components sit a
handful of small, deterministic rules, and this project restates them as
pure Dafny functions over immutable records and sequences, with their
contracts proved:

- the watermark compositor `applyWatermark`: short-circuit, failure policy,
  logo size and aspect ratio, the five anchors with a 20-pixel margin;
- the watermark settings form: default configuration, live preview,
  one-field control updates, slider ranges and button guards;
- the testimonial carousel: next and previous with wrap-around, the window
  of one or two cards, the five-star row and the indicator dots;
- the portfolio grid query: case-insensitive style filter, newest first,
  optional limit;
- the admin portfolio manager: the guarded add, edit and delete handlers;
- the admin messaging panel: opening a thread, sending a message, avatar
  initials and the unread counter;
- the registration form: the validation schema, the stored profile and the
  error-code mapping;
- the admin page: hash-to-tab selection and the access guard.

Modules:

| file | module | contents |
|---|---|---|
| wrappers.dfy | Wrappers | `Option` |
| notices.dfy | Notices | the toast notifications (`Success` / `Error`) |
| text.dfy | Text | ASCII case mapping, JavaScript `trim`, `split`/`join`, `replace` of the first occurrence, `a \|\| b` on strings |
| sequences.dfy | Sequences | `filter`, counting, a stable sort by an integer key (ECMAScript `Array.prototype.sort` is stable) |
| watermark.dfy | Watermark | `applyWatermark` |
| watermark_settings.dfy | WatermarkSettings | the settings form |
| carousel.dfy | Carousel | the testimonial slider |
| portfolio_query.dfy | PortfolioQuery | `fetchPortfolioItems` |
| portfolio_admin.dfy | PortfolioAdmin | the portfolio manager's handlers |
| client_messages.dfy | ClientMessages | the messaging panel |
| registration.dfy | Registration | the registration form |
| admin_dashboard.dfy | AdminDashboard | the admin page |

Environment effects are inputs:

- The browser is a `Browser` value: whether a 2D context can be created,
  and which URLs decode to an image of which (positive) size. A URL missing
  from the map is an image that fails to load.
- Clock readings, generated ids, file-reader results and object URLs are
  parameters.
- Whether an e-mail address is well formed is a boolean input.
- Which error code account creation fails with, if any, is an input.

Sizes and positions are Dafny `real`s. The JavaScript `%` on the carousel's
index is the same as Dafny's, because both operands are never negative there.

## Model

| member | source | states |
|---|---|---|
| Watermark.ApplyWatermark | src/lib/firebase.ts:38-118 | Disabled watermarking or an empty logo URL returns the input URL. A missing context or either image failing to load also returns the input URL, so no error escapes. Otherwise the result is a JPEG at quality 0.92 of a canvas of exactly the photograph's size: the photograph at the origin, then the alpha, then the logo at `Placement`. |
| Watermark.Placement | src/lib/firebase.ts:79-107 | The logo width is `size` percent of the base width. Drawn height times logo width equals logo height times drawn width (the aspect ratio). A position outside the five anchors leaves the origin at (0, 0). |
| Watermark.ParseAnchor | src/lib/firebase.ts:83-107 | A position string selects an anchor exactly when it is that anchor's name. No anchor is selected iff it names none of the five. |
| Watermark.AspectRatioPreserved | src/lib/firebase.ts:79-80 | For a non-zero size, the drawn height-to-width ratio equals the logo's native ratio. |
| Watermark.CornerMargins | src/lib/firebase.ts:86-102 | Each corner anchor puts the logo 20 pixels from the two edges it names. |
| Watermark.CenterIsCentred | src/lib/firebase.ts:103-106 | The centre anchor leaves equal left and right gaps and equal top and bottom gaps. |
| Watermark.GlobalAlpha | src/lib/firebase.ts:76 | The alpha the context keeps is always in [0, 1]. It equals the configured opacity iff that opacity is in [0, 1]; other values are ignored by the canvas setter. |
| Watermark.Composite | src/lib/firebase.ts:62-110 | The canvas has the base image's width and height. The draw calls are exactly: base at the origin, then set alpha, then draw the logo. |
| Watermark.ExampleBottomRight | src/lib/firebase.ts:79-102 | 1000x1000 photo, 200x100 logo, 30%, bottom-right: the logo lands at (680, 830) and is 300x150. |
| Watermark.ExampleTopLeft | src/lib/firebase.ts:79-89 | 500x500 photo, square logo, 10%, top-left: the logo lands at (20, 20) and is 50x50. |
| WatermarkSettings.DefaultConfigValues | src/components/admin/watermark-settings.tsx:27-33 | The form starts enabled, with no logo URL, opacity 0.5, anchor bottom-right and size 30. |
| WatermarkSettings.GeneratePreview | src/components/admin/watermark-settings.tsx:151-245 | The preview is cleared iff both the logo URL and the logo preview are empty. It shows an image iff a logo exists, a context exists and both images load; any other failure keeps the old preview. The image shown is the common composite of `config.logoUrl \|\| logoPreview` on the photo. |
| WatermarkSettings.PreviewMatchesApplyWatermark | src/components/admin/watermark-settings.tsx:203-238 | With watermarking on and a logo URL set, the preview shows exactly the image `applyWatermark` encodes, and keeps the old preview exactly when `applyWatermark` falls back to the photograph: the two duplicated geometries agree. |
| WatermarkSettings.PreviewIgnoresEnabled | src/components/admin/watermark-settings.tsx:155-158 | The preview is the same with watermarking switched off as switched on, unlike `applyWatermark`. |
| WatermarkSettings.CompositeIgnoresSwitches | src/components/admin/watermark-settings.tsx:200-234 | The composite depends only on opacity, size and position: not on the enabled switch or the logo URL. |
| WatermarkSettings.RegeneratePreview | src/components/admin/watermark-settings.tsx:79-90 | With no logo at all the effect does nothing; it never clears the preview. The preview is shown iff some logo is set, the canvas context exists, and both the active photo and the logo (the logo preview in preference to the configured URL) load. |
| WatermarkSettings.ApplyPreviewUpdate | src/components/admin/watermark-settings.tsx:155-158 | The displayed preview after one generator run: cleared to none, left as it was, or replaced by the new image (the two `setWatermarkedPreview` calls and the paths that make none). |
| WatermarkSettings.LoadConfig | src/components/admin/watermark-settings.tsx:53-76 | One second after it starts, the load replaces the whole configuration by the defaults with the saved logo URL and the logo preview by that URL; the file flag and busy flags are untouched. It then generates the preview of the saved configuration on the active photo: shown iff the context exists and both the photo and the saved logo load, never cleared. |
| WatermarkSettings.SelectPreviewImage | src/components/admin/watermark-settings.tsx:440-447 | A click on the thumbnail already active sets the state to the value it holds, so nothing re-runs: the form is unchanged and the preview kept. A click on any other thumbnail changes the load effect's dependency, so after the delay the configuration is the saved one and the logo preview the saved URL, with the busy flags and the file flag untouched. The preview is never cleared; after a click on another thumbnail it is shown iff the context exists and both the chosen photo and the saved logo load, and it is then the saved configuration's composite on the chosen photo. |
| WatermarkSettings.ThumbnailDiscardsEdits | src/components/admin/watermark-settings.tsx:53-76 | After a click on a thumbnail other than the active one, the form is the same whatever configuration and logo preview it held: unsaved control values and a selected logo's preview are thrown away. |
| WatermarkSettings.ThumbnailUndoesControl | src/components/admin/watermark-settings.tsx:53-76 | A control change followed by a click on another thumbnail ends where the click alone would: the change is lost. |
| WatermarkSettings.ActiveThumbnailKeepsControl | src/components/admin/watermark-settings.tsx:446 | A control change followed by a click on the active thumbnail survives. When the change left the saved configuration, that outcome differs from a click on any other thumbnail. |
| WatermarkSettings.ApplyControl | src/components/admin/watermark-settings.tsx:258-375 | Each control sets exactly its one field to the chosen value and leaves every other field, the logo URL included, unchanged. |
| WatermarkSettings.SelectLogoFile | src/components/admin/watermark-settings.tsx:92-106 | Without a file nothing changes. With one, the file is recorded, the configuration is unchanged, and a non-empty data URL becomes the logo preview. |
| WatermarkSettings.UploadLogo | src/components/admin/watermark-settings.tsx:108-132 | Without a selected file it is rejected with an error and nothing changes. Otherwise the configured logo URL becomes the logo preview, the selection is cleared and success is reported. |
| WatermarkSettings.NoLogoNoButtons | src/components/admin/watermark-settings.tsx:109-112 | With no file chosen and no logo URL, both the upload and save buttons are disabled, and an upload changes nothing. |
| WatermarkSettings.CanUpload | src/components/admin/watermark-settings.tsx:322-328 | The upload button is enabled iff a logo file is selected and no upload is running. |
| WatermarkSettings.CanSave | src/components/admin/watermark-settings.tsx:402-408 | The save button is enabled iff no save is running and a logo URL is configured. |
| WatermarkSettings.OpacityStop | src/components/admin/watermark-settings.tsx:341-348 | Every stop of the opacity slider lies in [0.1, 1]. |
| WatermarkSettings.SizeStop | src/components/admin/watermark-settings.tsx:359-366 | Every stop of the size slider lies in [5, 50]. |
| WatermarkSettings.OpacitySliderAlpha | src/components/admin/watermark-settings.tsx:341-348 | Every slider opacity is kept by the canvas as the logo's alpha. |
| WatermarkSettings.SizeSliderWidth | src/components/admin/watermark-settings.tsx:359-366 | Every slider size draws the logo between a twentieth and a half of the photo's width. |
| Carousel.Next | src/components/home/testimonial-slider.tsx:83-85 | The index stays in [0, n). It advances by one, except from the last entry, which wraps to 0. |
| Carousel.Prev | src/components/home/testimonial-slider.tsx:87-89 | The index stays in [0, n). It goes back by one, except from 0, which wraps to the last entry. |
| Carousel.NextPrevInverse | src/components/home/testimonial-slider.tsx:83-89 | Next and previous undo each other in both orders. |
| Carousel.NextTimesIsModular | src/components/home/testimonial-slider.tsx:84 | k presses of next from i land on (i + k) mod n. |
| Carousel.FullTurn | src/components/home/testimonial-slider.tsx:84 | n presses of next return to the starting card. |
| Carousel.ItemsToShow | src/components/home/testimonial-slider.tsx:72-92 | One card on a phone-width window, two otherwise. |
| Carousel.IsMobile | src/components/home/testimonial-slider.tsx:72-75 | The phone layout applies iff the window is narrower than 768 pixels. |
| Carousel.Visible | src/components/home/testimonial-slider.tsx:95-97 | The window has exactly the requested number of cards. Card k is entry (current + k) mod n, wrapping past the end. |
| Carousel.VisibleAfterNext | src/components/home/testimonial-slider.tsx:83-97 | After next, the window is the old one without its first card, followed by the entry just past its end. |
| Carousel.TwoCardsDiffer | src/components/home/testimonial-slider.tsx:92-97 | With unique ids and at least two testimonials, the two cards shown side by side are different. |
| Carousel.Stars | src/components/home/testimonial-slider.tsx:149-155 | Exactly five stars; star k is filled iff k < rating. |
| Carousel.FilledStars | src/components/home/testimonial-slider.tsx:149-155 | The number of filled stars is the rating clamped to [0, 5]. |
| Carousel.FindIndex | src/components/home/testimonial-slider.tsx:170-172 | The first position holding the id, or -1 iff no entry holds it. |
| Carousel.Indicators | src/components/home/testimonial-slider.tsx:167-175 | One dot per testimonial, for any list of testimonials: dot j is active iff the current index is in range, holds dot j's id, and no earlier position holds it. |
| Carousel.ClickIndicator | src/components/home/testimonial-slider.tsx:170 | A click on dot j selects the first position that holds dot j's id, which is no later than j. |
| Carousel.IndicatorsTrackCurrent | src/components/home/testimonial-slider.tsx:167-173 | With unique ids, dot j is active iff j is the current index (so exactly one is active), and clicking dot j selects j. |
| Carousel.TestimonialIdsUnique | src/components/home/testimonial-slider.tsx:17-66 | The six built-in testimonials have pairwise distinct ids, so the previous facts apply to them. |
| PortfolioQuery.FilterByStyle | uploads/tattoo-portfolio/src/components/portfolio/portfolio-grid.tsx:113-116 | Without a style nothing is filtered out. With one, every kept item matches it case-insensitively and every matching item is kept. Nothing is invented. |
| PortfolioQuery.ApplyLimit | uploads/tattoo-portfolio/src/components/portfolio/portfolio-grid.tsx:121-124 | A positive limit keeps the first min(limit, length) items; an absent or non-positive limit keeps everything. |
| PortfolioQuery.FetchPortfolioItems | uploads/tattoo-portfolio/src/components/portfolio/portfolio-grid.tsx:111-124 | The result is newest first and is a sub-multiset of the source items. It matches the style. Without a limit it is a permutation of the filtered items; with one it has min(limit, filtered length) items. |
| PortfolioQuery.KeepsNewest | uploads/tattoo-portfolio/src/components/portfolio/portfolio-grid.tsx:119-124 | A matching item the limit cuts off is no newer than any item kept. |
| PortfolioQuery.FetchIsSortedPrefix | uploads/tattoo-portfolio/src/components/portfolio/portfolio-grid.tsx:111-124 | The result is a prefix of the matching items in stable newest-first order: all of them without a limit, the first min(limit, n) with one. |
| PortfolioQuery.SameTimeKeepsOrder | uploads/tattoo-portfolio/src/components/portfolio/portfolio-grid.tsx:119 | Items with the same creation time keep their source order (the sort is stable). |
| Sequences.SortBy | uploads/tattoo-portfolio/src/components/portfolio/portfolio-grid.tsx:119 | The sort returns a permutation of its input ordered by the key. |
| Sequences.SortByStable | uploads/tattoo-portfolio/src/components/portfolio/portfolio-grid.tsx:119 | Elements with equal keys come out in their input order. |
| Sequences.Filter | uploads/tattoo-portfolio/src/components/admin/portfolio-management.tsx:205 | `filter` keeps exactly the elements satisfying the predicate: every kept element satisfies it and comes from the input, every satisfying element is kept, and nothing is duplicated. |
| PortfolioAdmin.Add | uploads/tattoo-portfolio/src/components/admin/portfolio-management.tsx:125-162 | No file: the list is unchanged with the "select an image" error. Empty title or style: unchanged with the "fill in" error. Success iff both guards pass; then exactly one item is appended after the untouched old items, with a success toast. |
| PortfolioAdmin.CanAdd | uploads/tattoo-portfolio/src/components/admin/portfolio-management.tsx:126-134 | An add passes its guards iff a file is selected and both title and style are non-empty; the description may be empty. |
| PortfolioAdmin.NewItem | uploads/tattoo-portfolio/src/components/admin/portfolio-management.tsx:144-151 | The appended item carries the new id and the draft's fields. Its order is the old length plus one. Its image is the preview, or the placeholder when there is none. |
| PortfolioAdmin.EditItem | uploads/tattoo-portfolio/src/components/admin/portfolio-management.tsx:174-184 | Id, image and order never change. An untargeted item is unchanged; the targeted one takes the draft's title, style and description. |
| PortfolioAdmin.Edit | uploads/tattoo-portfolio/src/components/admin/portfolio-management.tsx:164-195 | The list keeps its length and order, and each item is edited on its own. With nothing selected the list is unchanged. |
| PortfolioAdmin.Delete | uploads/tattoo-portfolio/src/components/admin/portfolio-management.tsx:197-213 | With nothing selected the list is unchanged. Otherwise no item with the selected id remains, every other item remains, and nothing is added. |
| PortfolioAdmin.DeleteKeepsOrder | uploads/tattoo-portfolio/src/components/admin/portfolio-management.tsx:205 | Delete distributes over concatenation, so the remaining items keep their relative order. |
| PortfolioAdmin.DemoOrdersArePositions | uploads/tattoo-portfolio/src/components/admin/portfolio-management.tsx:26-51 | The starting list numbers its items 1, 2, 3 by position. |
| PortfolioAdmin.AddKeepsPositions | uploads/tattoo-portfolio/src/components/admin/portfolio-management.tsx:150-153 | If orders equal positions before an add, they still do after it. |
| PortfolioAdmin.EditKeepsPositions | uploads/tattoo-portfolio/src/components/admin/portfolio-management.tsx:174-184 | If orders equal positions before an edit, they still do after it. |
| PortfolioAdmin.DeleteThenAddRepeatsOrder | uploads/tattoo-portfolio/src/components/admin/portfolio-management.tsx:144-205 | Delete does not renumber. Deleting the first of two items and then adding one leaves two items with the same order. |
| PortfolioAdmin.DeleteUndoesAdd | uploads/tattoo-portfolio/src/components/admin/portfolio-management.tsx:144-205 | Deleting the item an add would create restores the list, whether or not the add passed its guards. |
| PortfolioAdmin.DeleteAfterEdit | uploads/tattoo-portfolio/src/components/admin/portfolio-management.tsx:174-205 | Deleting an item after editing it gives the same list as deleting it straight away. |
| PortfolioAdmin.DeleteIdempotent | uploads/tattoo-portfolio/src/components/admin/portfolio-management.tsx:205 | A second delete of the same selection changes nothing. |
| PortfolioAdmin.EditIdempotent | uploads/tattoo-portfolio/src/components/admin/portfolio-management.tsx:174-184 | Saving the same edit twice equals saving it once. |
| ClientMessages.ThreadOf | src/components/admin/client-messages.tsx:181 | The stored messages for the id, or none when the store has no entry. |
| ClientMessages.UpdateClients | src/components/admin/client-messages.tsx:185-187 | The map over clients keeps the length, applies the update to each client with the id and leaves every other client as it was. |
| ClientMessages.MarkRead | src/components/admin/client-messages.tsx:186 | Only the unread flag changes, and it becomes false. |
| ClientMessages.SelectClient | src/components/admin/client-messages.tsx:201-204 | Only the selection changes. |
| ClientMessages.OpenThread | src/components/admin/client-messages.tsx:178-190 | Without a selection nothing changes. With one, the thread is a permutation of that client's stored messages (none if it has none), sorted oldest first. The clients with that id are marked read and nothing else about them or any other client changes. |
| ClientMessages.OpenThreadStable | src/components/admin/client-messages.tsx:182 | Messages with the same timestamp stay in their stored order. |
| ClientMessages.OpenThreadIdempotent | src/components/admin/client-messages.tsx:178-190 | A second run of the effect body yields the same state values as the first. |
| ClientMessages.Outgoing | src/components/admin/client-messages.tsx:217-224 | The message is from "admin", unread, and carries the attached file. Its text is absent iff the input is blank; otherwise it is the trimmed input. |
| ClientMessages.CanSend | src/components/admin/client-messages.tsx:211 | Sending is allowed iff a client is selected and the text is not all white space or a file is attached. |
| ClientMessages.Summarise | src/components/admin/client-messages.tsx:230-237 | The update a send makes to the selected client: the given summary text as last message, the send time as its date, and read. |
| ClientMessages.Send | src/components/admin/client-messages.tsx:210-252 | Refused (nothing changes, no toast) without a selection or with blank text and no file. Otherwise: the message is appended last; the selected client gets the raw text (or "Image" when empty), the send time and read status, with every other client unchanged; the input and file are cleared; "Message sent" is shown. |
| ClientMessages.CanSendIsTrimGuard | src/components/admin/client-messages.tsx:211 | The send guard passes iff a client is selected and either the trimmed text is non-empty or a file is attached; equivalently, the text is not all whitespace or a file is attached. |
| ClientMessages.SendTwiceSendsOnce | src/components/admin/client-messages.tsx:211-244 | The input is cleared, so an immediate second send is refused. |
| ClientMessages.BlankTextWithFile | src/components/admin/client-messages.tsx:219-234 | A blank text with a file sends a message without text, yet the client summary shows the raw blank text, not "Image". |
| ClientMessages.UnreadCount | src/components/admin/client-messages.tsx:281 | The counter is the number of clients flagged unread, and it is zero iff no client is unread. |
| ClientMessages.UnreadCountZero | src/components/admin/client-messages.tsx:281 | The count of unread clients is zero iff no client is unread. |
| ClientMessages.UnreadAfterUpdate | src/components/admin/client-messages.tsx:230-240 | An update that marks clients read lowers the counter by exactly the number of unread clients with that id. |
| ClientMessages.OpenThreadCount | src/components/admin/client-messages.tsx:185-188 | Opening a thread lowers the counter by the unread clients with the selected id. |
| ClientMessages.SendCount | src/components/admin/client-messages.tsx:230-242 | A send lowers the counter by the unread clients with the selected id. |
| ClientMessages.UpdateTwice | src/components/admin/client-messages.tsx:185-188 | An idempotent, id-preserving client update applied twice equals once. |
| ClientMessages.Initials | src/components/admin/client-messages.tsx:264-270 | The initials are the upper-cased characters that open the name or follow a space, empty parts contributing nothing. That is the same as an independent left-to-right scan, and never longer than the name. |
| ClientMessages.InitialsByScan | src/components/admin/client-messages.tsx:265-268 | Splitting at spaces and taking each part's first character equals the scan for word starts. |
| Registration.NameIssues | uploads/tattoo-portfolio/src/app/register/page.tsx:37-44 | No issue iff the length is in [2, 50]. All issues sit on the field, with the schema's message for a short name and the library's message for a long one. |
| Registration.PasswordIssues | uploads/tattoo-portfolio/src/app/register/page.tsx:46-52 | No issue iff the length is in [8, 100] and there is an upper-case letter, a lower-case letter and a digit. Each missing character class reports its own message on the password field. |
| Registration.NameOk | uploads/tattoo-portfolio/src/app/register/page.tsx:37-44 | A name is valid iff it has between 2 and 50 characters. |
| Registration.HasUpper | uploads/tattoo-portfolio/src/app/register/page.tsx:50 | `/[A-Z]/` matches iff some character is an ASCII upper-case letter. |
| Registration.HasLower | uploads/tattoo-portfolio/src/app/register/page.tsx:51 | `/[a-z]/` matches iff some character is an ASCII lower-case letter. |
| Registration.HasDigit | uploads/tattoo-portfolio/src/app/register/page.tsx:52 | `/[0-9]/` matches iff some character is an ASCII digit. |
| Registration.PasswordOk | uploads/tattoo-portfolio/src/app/register/page.tsx:46-52 | A password is valid iff it has 8 to 100 characters and an upper-case letter, a lower-case letter and a digit. |
| Registration.Validate | uploads/tattoo-portfolio/src/app/register/page.tsx:35-60 | The form passes iff both names, the e-mail and the password are valid and the confirmation equals the password. "Passwords do not match" is reported iff they differ, and it is the only issue ever put on `confirmPassword`. |
| Registration.LaterIssues | uploads/tattoo-portfolio/src/app/register/page.tsx:41-60 | The checks after the first name pass iff their rules hold. They never report on the first name, and they report the mismatch iff the passwords differ. |
| Registration.FirstNameIssuesOnly | uploads/tattoo-portfolio/src/app/register/page.tsx:37-40 | The issues on the first name are exactly its own checks, whatever the other fields hold. |
| Registration.IssuesOn | uploads/tattoo-portfolio/src/app/register/page.tsx:57-60 | Selecting a field's issues keeps exactly the issues on that field. |
| Registration.MinimalPassword | uploads/tattoo-portfolio/src/app/register/page.tsx:46-52 | An eight-character password with one upper-case letter, lower-case letters and a digit passes. |
| Registration.Check | uploads/tattoo-portfolio/src/app/register/page.tsx:39-52 | A check reports nothing iff it holds, and otherwise one issue with its field and message. |
| Registration.DisplayName | uploads/tattoo-portfolio/src/app/register/page.tsx:104 | The display name is the first name, one space, then the last name. |
| Registration.DisplayNameSplits | uploads/tattoo-portfolio/src/app/register/page.tsx:104 | For names without spaces, splitting the display name at spaces gives back the two names. |
| Registration.Stored | uploads/tattoo-portfolio/src/app/register/page.tsx:112-113 | An absent optional field is stored as "", a present one as given. |
| Registration.NewProfile | uploads/tattoo-portfolio/src/app/register/page.tsx:108-116 | The profile copies the names and e-mail. The two optional fields are stored with "" for absent. It is never an administrator. |
| Registration.FailureMessage | uploads/tattoo-portfolio/src/app/register/page.tsx:123-127 | The "already in use" message iff the code is `auth/email-already-in-use`; the generic message iff it is any other code. |
| Registration.Submit | uploads/tattoo-portfolio/src/app/register/page.tsx:88-132 | Registration succeeds iff no call fails. On success the outcome has the display name, the new profile, the success toast and the redirect to `/login`. On failure it has the mapped message and the failure toast. |
| AdminDashboard.HashOf | src/app/admin/page.tsx:20 | `location.hash` is "" iff the fragment is absent or empty; otherwise it is "#" followed by the fragment. |
| AdminDashboard.SetHash | src/app/admin/page.tsx:71 | Assigning the hash stores the value minus one leading "#". |
| AdminDashboard.ReadHash | src/app/admin/page.tsx:33 | Reading removes the first "#": a hash with none is unchanged, and a leading one is dropped. |
| Text.RemoveFirst | src/app/admin/page.tsx:20 | `replace("#", "")` removes exactly the first occurrence, wherever it is, and nothing if there is none. |
| AdminDashboard.Mount | src/app/admin/page.tsx:15-23 | The page starts on "portfolio" and switches to the hash's tab iff that is an accepted tab. |
| AdminDashboard.Accepted | src/app/admin/page.tsx:21 | A hash value switches the tab iff it is non-empty and one of "portfolio", "messages", "watermark". |
| AdminDashboard.OnHashChange | src/app/admin/page.tsx:32-36 | The tab changes to the hash's value iff it is non-empty and one of the three tabs; otherwise nothing changes. |
| AdminDashboard.Navigate | src/app/admin/page.tsx:32-39 | After a navigation the active tab is the old one or an accepted tab. |
| AdminDashboard.SelectTab | src/app/admin/page.tsx:70-73 | A tab click makes that value both the active tab and the hash. |
| AdminDashboard.HashRoundTrip | src/app/admin/page.tsx:20-71 | Setting the hash and reading it back gives the value, less one leading "#". |
| AdminDashboard.SelectThenHashChange | src/app/admin/page.tsx:32-73 | The `hashchange` caused by a tab click keeps the tab the click chose. |
| AdminDashboard.MountActiveIsTab | src/app/admin/page.tsx:15-23 | The active tab after mounting is one of the three tabs. |
| AdminDashboard.NavigatePreservesActiveIsTab | src/app/admin/page.tsx:32-36 | Navigation keeps the active tab among the three. |
| AdminDashboard.Guard | src/app/admin/page.tsx:48-58 | A spinner iff the session is loading. A redirect iff it is unauthenticated, absent or not an administrator. The dashboard only for an authenticated administrator. |
| Text.Trim | src/components/admin/client-messages.tsx:211-219 | JavaScript `trim`: the result is the infix of the input that follows its leading run of whitespace, and only whitespace comes after it. It is empty iff the input is all whitespace, and otherwise starts and ends with non-whitespace. |
| Text.JoinSplit | src/components/admin/client-messages.tsx:266 | Joining the parts of a split with the separator gives back the string. |
| Text.Split | src/components/admin/client-messages.tsx:266 | `split(' ')` yields at least one part and no part contains the separator; `Text.JoinSplit` and `Text.SplitJoin` make it the inverse of joining. |
| Text.SplitJoin | src/components/admin/client-messages.tsx:266 | Splitting a join of separator-free parts gives back the parts. |
| Text.OrElse | src/components/admin/client-messages.tsx:234 | `a \|\| b` on strings: the result is `a` unless it is empty, `b` when it is, and so empty only when both are. |

## Left out

- Pixels: canvas drawing, alpha blending, `toDataURL` JPEG encoding and image loading are browser APIs. The canvas is described by its size and its list of draw calls, and the browser is a parameter.
- Zero-sized images: a logo of zero width gives NaN heights in JavaScript; decoded images are positive-sized here.
- IEEE-754 rounding is not modelled; geometry is over Dafny `real`.
- The opacity percentage display (`Math.round(opacity * 100)`) is presentation only.
- The timing of the configuration load is not modelled, only its outcome (WatermarkSettings.LoadConfig). The load runs on mount and again one second after every click on a thumbnail other than the active one, because the active photo is its dependency; a click on the active thumbnail changes no state and re-runs nothing. In the meantime the regeneration effect has already drawn a preview from the unsaved state; that intermediate preview is not modelled. The load's failure toast cannot fire.
- Saving the watermark settings is a simulated delay with a toast.
- WatermarkSettings.RegeneratePreview: the effect's re-run schedule (which dependency changes trigger it) is React scheduling and is not modelled; one run is.
- Firebase client and admin initialisation (src/lib/firebase.ts:11-26, 120-153) is SDK and environment setup.
- The realtime message listener (src/components/admin/client-messages.tsx:192-199) is asynchronous, and its subscription function is not part of this model.
- ClientMessages.OpenThread: only one run of the open effect is modelled. Every run calls `setClients` with a new array, and `clients` is one of the effect's dependencies. So once a client is selected, React runs the effect again and again without end, and each run resets the thread to the stored messages, dropping any message just sent. OpenThreadIdempotent states only that a second run yields the same state values; it does not say that the effect stops firing.
- Timers, `FileReader`, `URL.createObjectURL` and `Date.now`: ids, times, data URLs and object URLs are inputs.
- Relative-time formatting (`date-fns`) is presentation.
- The e-mail format check is the validation library's own regular expression, so its verdict is a boolean input.
- Text.ToLower: case mapping is ASCII only; full Unicode case mapping (`toLowerCase`/`toUpperCase` on non-ASCII letters) is not modelled.
- String lengths count Dafny characters, not UTF-16 code units, so surrogate pairs count once.
- AdminDashboard.SetHash: percent-encoding of characters the URL fragment setter escapes is not modelled.
- Dialog open flags and the busy flags (`isUploading`, `isSending`, `showChat`, `isLoading`) only drive presentation.
- The edit and delete success toasts are not modelled. The `catch` branches of the portfolio and message handlers catch nothing the modelled code can throw.
- Registration.Submit: the three Firebase calls (user creation, profile update, document write) are collapsed into one optional failure code. Their partial effects, such as an account created before a later call fails, are not modelled.
- The demo client and message data of the messaging panel are not reproduced; the model is over any list and store.
- The purely presentational files (header, footer, layouts, home pages, artist section, service cards, providers, the session type declaration and the authentication route) hold no stateable logic.

=== FILE: admin_dashboard.dfy ===
/**
 * The admin page: which of the three tabs is active, how that follows the
 * URL fragment in both directions, and the access guard in front of it.
 *
 * `location.hash` follows the URL Standard: the getter is "" for an empty or
 * absent fragment and "#" followed by the fragment otherwise; the setter
 * drops one leading "#" and stores the rest as the fragment.
 */
module AdminDashboard {
  import opened Wrappers
  import opened Text

  const PortfolioTab: string := "portfolio"
  const MessagesTab: string := "messages"
  const WatermarkTab: string := "watermark"

  /** The tab values the page accepts, in display order. */
  const Tabs: seq<string> := [PortfolioTab, MessagesTab, WatermarkTab]

  /** The tab shown before any hash or click is seen. */
  const DefaultTab: string := PortfolioTab

  /** A hash value the page switches to: non-empty and one of the three tabs. */
  predicate Accepted(value: string) {
    value != "" && value in Tabs
  }

  /** The page's state: the active tab and the URL's fragment. */
  datatype Page = Page(activeTab: string, fragment: Option<string>)

  /** The getter of `location.hash`. */
  function HashOf(fragment: Option<string>): (h: string)
    ensures h == "" <==> fragment.None? || fragment.value == ""
    ensures h != "" ==> h[0] == '#' && h[1..] == fragment.value
  {
    match fragment
    case None => ""
    case Some(f) => if f == "" then "" else "#" + f
  }

  /** The fragment after `location.hash = value`. */
  function SetHash(value: string): (f: Option<string>)
    ensures f.Some?
    ensures |value| > 0 && value[0] == '#' ==> f.value == value[1..]
    ensures (|value| == 0 || value[0] != '#') ==> f.value == value
  {
    if |value| > 0 && value[0] == '#' then Some(value[1..]) else Some(value)
  }

  /** `location.hash.replace("#", "")`: the first "#" is removed, wherever it is. */
  function ReadHash(hash: string): (r: string)
    ensures '#' !in hash ==> r == hash
    ensures |hash| > 0 && hash[0] == '#' ==> r == hash[1..]
  {
    RemoveFirst(hash, '#')
  }

  /** The page when first rendered with a given fragment, after the mount effect. */
  function Mount(fragment: Option<string>): (p: Page)
    ensures p.fragment == fragment
    ensures Accepted(ReadHash(HashOf(fragment))) ==> p.activeTab == ReadHash(HashOf(fragment))
    ensures !Accepted(ReadHash(HashOf(fragment))) ==> p.activeTab == DefaultTab
  {
    OnHashChange(Page(DefaultTab, fragment))
  }

  /**
   * The hash listener (and the mount effect): switch to the tab the hash
   * names if it is accepted, otherwise keep the active tab.
   */
  function OnHashChange(p: Page): (r: Page)
    ensures r.fragment == p.fragment
    ensures Accepted(ReadHash(HashOf(p.fragment))) ==> r.activeTab == ReadHash(HashOf(p.fragment))
    ensures !Accepted(ReadHash(HashOf(p.fragment))) ==> r == p
  {
    var value := ReadHash(HashOf(p.fragment));
    if value != "" && value in Tabs then p.(activeTab := value) else p
  }

  /** A browser navigation to another fragment, followed by the `hashchange` listener. */
  function Navigate(p: Page, fragment: Option<string>): (r: Page)
    ensures r.fragment == fragment
    ensures r.activeTab == p.activeTab || Accepted(r.activeTab)
  {
    OnHashChange(p.(fragment := fragment))
  }

  /** A click on a tab trigger: the hash is set to the tab's value and the tab becomes active. */
  function SelectTab(p: Page, value: string): (r: Page)
    ensures r.activeTab == value
    ensures r.fragment == SetHash(value)
  {
    Page(value, SetHash(value))
  }

  /** Setting the hash and reading it back gives the value, less one leading "#". */
  lemma HashRoundTrip(value: string)
    ensures var back := ReadHash(HashOf(SetHash(value)));
      if |value| > 0 && value[0] == '#' then back == value[1..] else back == value
  {
    var f := SetHash(value).value;
    if f != "" {
      assert HashOf(SetHash(value)) == ['#'] + f;
      assert '#' in HashOf(SetHash(value));
      assert IndexOf(HashOf(SetHash(value)), '#') == 0;
    }
  }

  /**
   * A click and the `hashchange` event it causes agree: once the listener
   * runs on the new hash, the tab the click chose is still active.
   */
  lemma SelectThenHashChange(p: Page, value: string)
    requires value in Tabs
    ensures OnHashChange(SelectTab(p, value)) == SelectTab(p, value)
  {
    HashRoundTrip(value);
  }

  /** The active tab is always one of the three, whatever clicks and navigations happen. */
  predicate ActiveIsTab(p: Page) {
    p.activeTab in Tabs
  }

  lemma MountActiveIsTab(fragment: Option<string>)
    ensures ActiveIsTab(Mount(fragment))
  {
  }

  lemma NavigatePreservesActiveIsTab(p: Page, fragment: Option<string>)
    requires ActiveIsTab(p)
    ensures ActiveIsTab(Navigate(p, fragment))
  {
  }

  /** Session status as the authentication library reports it. */
  datatype Status = Loading | Authenticated | Unauthenticated

  /** The part of the session the guard reads. */
  datatype Session = Session(isAdmin: bool)

  /** What the page renders. */
  datatype View = Spinner | RedirectHome | Dashboard

  /**
   * The guard: a spinner while the session loads; a redirect to "/" when
   * unauthenticated or when there is no session or its user is not an
   * administrator; the dashboard otherwise.
   */
  function Guard(status: Status, session: Option<Session>): (v: View)
    ensures v == Spinner <==> status.Loading?
    ensures v == RedirectHome <==>
      !status.Loading? && (status.Unauthenticated? || session.None? || !session.value.isAdmin)
    ensures v == Dashboard ==> status.Authenticated? && session.Some? && session.value.isAdmin
  {
    if status.Loading? then Spinner
    else if status.Unauthenticated? || session.None? || !session.value.isAdmin then RedirectHome
    else Dashboard
  }
}

=== FILE: carousel.dfy ===
/**
 * The testimonial carousel on the home page: a current index that moves
 * forwards and backwards around the list, the window of one or two cards it
 * shows, the five-star rating row of each card and the row of indicator dots.
 */
module Carousel {
  import opened Wrappers
  import Sequences

  datatype Testimonial = Testimonial(id: string, name: string, image: Option<string>, rating: int, text: string, date: string)

  const Testimonials: seq<Testimonial> := [
    Testimonial("1", "Alex Johnson", Some("/testimonials/alex.jpg"), 5,
      "Absolutely incredible work! My sleeve tattoo exceeded all expectations. The attention to detail and the ability to bring my concept to life was amazing. Couldn't be happier with the result!",
      "March 15, 2024"),
    Testimonial("2", "Sarah Williams", Some("/testimonials/sarah.jpg"), 5,
      "I was nervous about getting my first tattoo, but the artist made me feel comfortable throughout the entire process. The studio was immaculately clean, and the final result is beautiful. Will definitely be back!",
      "February 28, 2024"),
    Testimonial("3", "Michael Chen", Some("/testimonials/michael.jpg"), 5,
      "The level of professionalism and artistic skill here is unmatched. My custom design was perfectly executed, and the healing process was smooth thanks to the excellent aftercare advice. Highly recommend!",
      "January 17, 2024"),
    Testimonial("4", "Emma Rodriguez", Some("/testimonials/emma.jpg"), 4,
      "A fantastic experience from consultation to completion. The artist really listened to what I wanted and offered valuable creative input to enhance my original idea. The shop is clean, welcoming, and the atmosphere is relaxed.",
      "December 5, 2023"),
    Testimonial("5", "David Thompson", Some("/testimonials/david.jpg"), 5,
      "This was my third tattoo here, and as always, the experience was excellent. The attention to detail and artistic vision continue to impress me. Already planning my next piece!",
      "November 20, 2023"),
    Testimonial("6", "Sample User", Some("/testimonials/sample.jpg"), 4,
      "This is a sample testimonial for testing purposes. The service was great and the tattoo turned out amazing!",
      "October 10, 2023")
  ]

  /** `nextTestimonial` on a list of `n` entries: one step forward, wrapping to the first. */
  function Next(i: nat, n: nat): (r: nat)
    requires i < n
    ensures r < n
    ensures i + 1 < n ==> r == i + 1
    ensures i + 1 == n ==> r == 0
  {
    (i + 1) % n
  }

  /** `prevTestimonial` on a list of `n` entries: one step back, wrapping to the last. */
  function Prev(i: nat, n: nat): (r: nat)
    requires i < n
    ensures r < n
    ensures i > 0 ==> r == i - 1
    ensures i == 0 ==> r == n - 1
  {
    (i - 1 + n) % n
  }

  /** Forward and back are inverse steps. */
  lemma NextPrevInverse(i: nat, n: nat)
    requires i < n
    ensures Prev(Next(i, n), n) == i
    ensures Next(Prev(i, n), n) == i
  {
  }

  /** `k` presses of the forward button. */
  function NextTimes(i: nat, n: nat, k: nat): (r: nat)
    requires i < n
    ensures r < n
  {
    if k == 0 then i else Next(NextTimes(i, n, k - 1), n)
  }

  /** `k` forward presses land on `(i + k) mod n`; `n` of them come back to the start. */
  lemma {:induction false} NextTimesIsModular(i: nat, n: nat, k: nat)
    requires i < n
    ensures NextTimes(i, n, k) == (i + k) % n
  {
    if k > 0 {
      NextTimesIsModular(i, n, k - 1);
      var a := i + k - 1;
      ModStep(a, n);
    }
  }

  lemma ModStep(a: nat, n: nat)
    requires n > 0
    ensures (a % n + 1) % n == (a + 1) % n
  {
    var q, r := a / n, a % n;
    if r + 1 < n {
      ModUnique(a + 1, q, r + 1, n);
      ModUnique(r + 1, 0, r + 1, n);
    } else {
      assert (q + 1) * n == q * n + n;
      ModUnique(a + 1, q + 1, 0, n);
      ModUnique(r + 1, 1, 0, n);
    }
  }

  /** Adding the modulus does not change a remainder. */
  lemma ModAddModulus(k: nat, n: nat)
    requires n > 0
    ensures (k + n) % n == k % n
  {
    assert (k / n + 1) * n == (k / n) * n + n;
    ModUnique(k + n, k / n + 1, k % n, n);
  }

  /** Euclidean division is unique. */
  lemma ModUnique(a: int, q: int, r: int, n: int)
    requires n > 0 && 0 <= r < n && a == q * n + r
    ensures a % n == r && a / n == q
  {
    var q', r' := a / n, a % n;
    assert (q - q') * n == q * n - q' * n;
    assert (q - q') * n == r' - r;
    assert (q' - q) * n == r - r';
    if q > q' {
      MulAtLeast(q - q', n);
    } else if q < q' {
      MulAtLeast(q' - q, n);
    }
  }

  lemma MulAtLeast(d: int, n: int)
    requires d >= 1 && n > 0
    ensures d * n >= n
  {
    assert d * n == (d - 1) * n + n;
    assert (d - 1) * n >= 0;
  }

  lemma FullTurn(i: nat, n: nat)
    requires i < n
    ensures NextTimes(i, n, n) == i
  {
    NextTimesIsModular(i, n, n);
    ModUnique(i + n, 1, i, n);
  }

  /** The phone layout applies below a window width of 768 pixels. */
  function IsMobile(innerWidth: int): bool {
    innerWidth < 768
  }

  /** Cards shown at once: one on a phone, two otherwise. */
  function ItemsToShow(isMobile: bool): (k: nat)
    ensures 1 <= k <= 2
    ensures k == 1 <==> isMobile
  {
    if isMobile then 1 else 2
  }

  /** The cards shown: `count` consecutive entries from `current`, wrapping around the end. */
  function Visible(ts: seq<Testimonial>, current: nat, count: nat): (r: seq<Testimonial>)
    requires |ts| > 0
    ensures |r| == count
    ensures forall k :: 0 <= k < count ==> r[k] == ts[(current + k) % |ts|]
  {
    seq(count, k requires 0 <= k < count => ts[(current + k) % |ts|])
  }

  /** A forward step slides the window by one card. */
  lemma VisibleAfterNext(ts: seq<Testimonial>, current: nat, count: nat)
    requires current < |ts| && count >= 1
    ensures Visible(ts, Next(current, |ts|), count)
         == Visible(ts, current, count)[1..] + [ts[(current + count) % |ts|]]
  {
    var n := |ts|;
    var a := Visible(ts, Next(current, n), count);
    var b := Visible(ts, current, count)[1..] + [ts[(current + count) % n]];
    forall k | 0 <= k < count ensures a[k] == b[k] {
      if current + 1 == n {
        ModAddModulus(k, n);
        assert current + 1 + k == k + n;
      }
    }
  }

  /** On a list of two or more, the two cards of the desktop layout are different entries. */
  lemma TwoCardsDiffer(ts: seq<Testimonial>, current: nat)
    requires current < |ts| && |ts| >= 2
    requires UniqueIds(ts)
    ensures Visible(ts, current, 2)[0] != Visible(ts, current, 2)[1]
  {
    var n := |ts|;
    ModUnique(current, 0, current, n);
    if current + 1 < n {
      ModUnique(current + 1, 0, current + 1, n);
    } else {
      ModUnique(current + 1, 1, 0, n);
    }
  }

  /** The rating row: five stars, star `k` filled exactly when `k < rating`. */
  function Stars(rating: int): (r: seq<bool>)
    ensures |r| == 5
    ensures forall k :: 0 <= k < 5 ==> (r[k] <==> k < rating)
  {
    StarRow(5, rating)
  }

  function StarRow(m: nat, rating: int): (r: seq<bool>)
    ensures |r| == m
    ensures forall k :: 0 <= k < m ==> (r[k] <==> k < rating)
  {
    if m == 0 then [] else StarRow(m - 1, rating) + [m - 1 < rating]
  }

  function Clamp(x: int, lo: int, hi: int): int
    requires lo <= hi
  {
    if x < lo then lo else if x > hi then hi else x
  }

  predicate IsFilled(b: bool) { b }

  /** The number of filled stars is the rating cut to the range 0..5. */
  lemma FilledStars(rating: int)
    ensures Sequences.Count(Stars(rating), IsFilled) == Clamp(rating, 0, 5)
  {
    FilledPrefix(5, rating);
  }

  lemma {:induction false} FilledPrefix(m: nat, rating: int)
    ensures Sequences.Count(StarRow(m, rating), IsFilled) == Clamp(rating, 0, m)
  {
    if m > 0 {
      var prefix := StarRow(m - 1, rating);
      FilledPrefix(m - 1, rating);
      Sequences.CountSnoc(prefix, m - 1 < rating, IsFilled);
      assert StarRow(m, rating) == prefix + [m - 1 < rating];
      var before := Sequences.Count(prefix, IsFilled);
      assert Sequences.Count(StarRow(m, rating), IsFilled) == before + (if m - 1 < rating then 1 else 0);
    }
  }

  predicate UniqueIds(ts: seq<Testimonial>) {
    forall i, j :: 0 <= i < j < |ts| ==> ts[i].id != ts[j].id
  }

  /** `findIndex(t => t.id === id)`: the first position holding `id`, or -1. */
  function FindIndex(ts: seq<Testimonial>, id: string): (r: int)
    ensures -1 <= r < |ts|
    ensures r >= 0 ==> ts[r].id == id && forall j :: 0 <= j < r ==> ts[j].id != id
    ensures r == -1 <==> forall j :: 0 <= j < |ts| ==> ts[j].id != id
  {
    if |ts| == 0 then -1
    else if ts[0].id == id then 0
    else
      var r := FindIndex(ts[1..], id);
      if r == -1 then -1 else r + 1
  }

  /**
   * The dot row: dot `j` is highlighted when `current` is the first position
   * holding dot `j`'s testimonial id.
   */
  function Indicators(ts: seq<Testimonial>, current: nat): (r: seq<bool>)
    ensures |r| == |ts|
    ensures forall j :: 0 <= j < |ts| ==>
      (r[j] <==> current < |ts| && ts[current].id == ts[j].id
                 && forall k :: 0 <= k < current ==> ts[k].id != ts[j].id)
  {
    seq(|ts|, j requires 0 <= j < |ts| => FindIndex(ts, ts[j].id) == current)
  }

  /** Clicking dot `j` moves to the first position holding dot `j`'s testimonial id. */
  function ClickIndicator(ts: seq<Testimonial>, j: nat): (r: nat)
    requires j < |ts|
    ensures r <= j && ts[r].id == ts[j].id
    ensures forall k :: 0 <= k < r ==> ts[k].id != ts[j].id
  {
    FindIndex(ts, ts[j].id)
  }

  /** With distinct ids exactly one dot, the current one, is highlighted, and dot `j` leads to `j`. */
  lemma IndicatorsTrackCurrent(ts: seq<Testimonial>, current: nat)
    requires UniqueIds(ts) && current < |ts|
    ensures forall j :: 0 <= j < |ts| ==> (Indicators(ts, current)[j] <==> j == current)
    ensures forall j :: 0 <= j < |ts| ==> ClickIndicator(ts, j) == j
  {
  }

  lemma TestimonialIdsUnique()
    ensures UniqueIds(Testimonials)
  {
    var ids := seq(|Testimonials|, i requires 0 <= i < |Testimonials| => Testimonials[i].id[0]);
    assert ids == ['1', '2', '3', '4', '5', '6'];
    forall i, j | 0 <= i < j < |Testimonials| ensures Testimonials[i].id != Testimonials[j].id {
      assert ids[i] != ids[j];
    }
  }
}

=== FILE: client_messages.dfy ===
/**
 * The admin messaging panel: opening a client's thread (its messages in time
 * order, the client marked read), sending a message (guard, append, update of
 * the client summary, clearing of the input), the avatar initials and the
 * unread counter. Times are milliseconds since the epoch and, like message
 * ids and the object URL of an attached file, are inputs.
 */
module ClientMessages {
  import opened Wrappers
  import opened Text
  import opened Sequences
  import opened Notices

  datatype Client = Client(
    id: string,
    name: string,
    email: string,
    lastMessage: string,
    lastMessageDate: int,
    unread: bool,
    avatar: Option<string>)

  /** A chat message; `text` and `imageUrl` are the optional fields of the record. */
  datatype Message = Message(
    id: string,
    text: Option<string>,
    imageUrl: Option<string>,
    sender: string,
    timestamp: int,
    read: bool)

  /**
   * The panel's state: the client list, the selected client (a copy taken
   * when it was clicked), the open thread, the text being typed and the
   * object URL of the attached file, if any.
   */
  datatype Inbox = Inbox(
    clients: seq<Client>,
    selected: Option<Client>,
    messages: seq<Message>,
    draft: string,
    attachment: Option<string>)

  const AdminSender: string := "admin"
  const ImageSummary: string := "Image"
  const SentMessage: string := "Message sent"

  /** The messages stored for a client id, or none when the store has no entry. */
  function ThreadOf(store: map<string, seq<Message>>, id: string): (t: seq<Message>)
    ensures id in store ==> t == store[id]
    ensures id !in store ==> t == []
  {
    if id in store then store[id] else []
  }

  /** The comparator `a.timestamp - b.timestamp`: oldest first. */
  function Timestamp(m: Message): int {
    m.timestamp
  }

  /** `clients.map(c => c.id === id ? f(c) : c)`. */
  function UpdateClients(cs: seq<Client>, id: string, f: Client -> Client): (r: seq<Client>)
    ensures |r| == |cs|
    ensures forall i :: 0 <= i < |r| && cs[i].id == id ==> r[i] == f(cs[i])
    ensures forall i :: 0 <= i < |r| && cs[i].id != id ==> r[i] == cs[i]
  {
    if |cs| == 0 then []
    else [if cs[0].id == id then f(cs[0]) else cs[0]] + UpdateClients(cs[1..], id, f)
  }

  /** The update the thread-open effect applies to the selected client. */
  function MarkRead(c: Client): (r: Client)
    ensures !r.unread && r.(unread := c.unread) == c
  {
    c.(unread := false)
  }

  /** The update a send applies to the selected client. */
  function Summarise(text: string, now: int): Client -> Client {
    (c: Client) => c.(lastMessage := text, lastMessageDate := now, unread := false)
  }

  /** `handleClientSelect`: only the selection changes. */
  function SelectClient(inbox: Inbox, c: Client): (r: Inbox)
    ensures r.selected == Some(c) && r.(selected := inbox.selected) == inbox
  {
    inbox.(selected := Some(c))
  }

  /**
   * The thread-open effect: with a client selected, the thread becomes that
   * client's stored messages oldest first (none if the store has no entry),
   * and every client with the selected id is marked read; nothing else
   * changes. Without a selection it does nothing.
   */
  function OpenThread(inbox: Inbox, store: map<string, seq<Message>>): (r: Inbox)
    ensures inbox.selected.None? ==> r == inbox
    ensures r.selected == inbox.selected && r.draft == inbox.draft && r.attachment == inbox.attachment
    ensures inbox.selected.Some? ==>
      var id := inbox.selected.value.id;
      && SortedBy(r.messages, Timestamp)
      && multiset(r.messages) == multiset(ThreadOf(store, id))
      && |r.clients| == |inbox.clients|
      && (forall i :: 0 <= i < |r.clients| && inbox.clients[i].id == id ==>
            !r.clients[i].unread && r.clients[i].(unread := inbox.clients[i].unread) == inbox.clients[i])
      && (forall i :: 0 <= i < |r.clients| && inbox.clients[i].id != id ==> r.clients[i] == inbox.clients[i])
  {
    if inbox.selected.None? then inbox
    else
      var id := inbox.selected.value.id;
      inbox.(messages := SortBy(ThreadOf(store, id), Timestamp),
             clients := UpdateClients(inbox.clients, id, MarkRead))
  }

  /** Sending is refused without a selected client, or with a blank text and no file. */
  predicate CanSend(inbox: Inbox) {
    inbox.selected.Some? && (!AllSpace(inbox.draft) || inbox.attachment.Some?)
  }

  /** The guard as the handler writes it: `!selectedClient || (!newMessage.trim() && !fileUpload)` refuses. */
  lemma CanSendIsTrimGuard(inbox: Inbox)
    ensures CanSend(inbox) <==> inbox.selected.Some? && (Trim(inbox.draft) != [] || inbox.attachment.Some?)
  {
  }

  /** The message a send appends: trimmed text (absent when blank), the file, unread, from the admin. */
  function Outgoing(inbox: Inbox, msgId: string, now: int): (m: Message)
    ensures m.id == msgId && m.sender == AdminSender && m.timestamp == now && !m.read
    ensures m.imageUrl == inbox.attachment
    ensures m.text.None? <==> AllSpace(inbox.draft)
    ensures m.text.Some? ==> m.text.value == Trim(inbox.draft)
  {
    var text := Trim(inbox.draft);
    Message(msgId, if text == [] then None else Some(text), inbox.attachment, AdminSender, now, false)
  }

  /**
   * `handleSendMessage`. When refused, nothing changes and no toast is shown.
   * Otherwise the message is appended to the thread, every client with the
   * selected id gets the raw text (or "Image" when it is empty) as its last
   * message, `now` as its date and is marked read, and the input is cleared.
   */
  function Send(inbox: Inbox, msgId: string, now: int): (r: (Inbox, Option<Toast>))
    ensures !CanSend(inbox) ==> r == (inbox, None)
    ensures CanSend(inbox) ==>
      var (next, toast) := r;
      var id := inbox.selected.value.id;
      && toast == Some(Success(SentMessage))
      && next.selected == inbox.selected
      && next.messages == inbox.messages + [Outgoing(inbox, msgId, now)]
      && next.draft == "" && next.attachment == None
      && |next.clients| == |inbox.clients|
      && (forall i :: 0 <= i < |next.clients| && inbox.clients[i].id == id ==>
            && next.clients[i].lastMessage == OrElse(inbox.draft, ImageSummary)
            && next.clients[i].lastMessageDate == now
            && !next.clients[i].unread
            && next.clients[i].(lastMessage := inbox.clients[i].lastMessage,
                                lastMessageDate := inbox.clients[i].lastMessageDate,
                                unread := inbox.clients[i].unread) == inbox.clients[i])
      && (forall i :: 0 <= i < |next.clients| && inbox.clients[i].id != id ==> next.clients[i] == inbox.clients[i])
  {
    if !CanSend(inbox) then (inbox, None)
    else
      var id := inbox.selected.value.id;
      var clients := UpdateClients(inbox.clients, id, Summarise(OrElse(inbox.draft, ImageSummary), now));
      (Inbox(clients, inbox.selected, inbox.messages + [Outgoing(inbox, msgId, now)], "", None),
       Some(Success(SentMessage)))
  }

  function IsUnread(c: Client): bool {
    c.unread
  }

  /** The header's counter: `clients.filter(c => c.unread).length`. */
  function UnreadCount(cs: seq<Client>): (n: nat)
    ensures n == Count(cs, IsUnread)
    ensures n == 0 <==> forall i :: 0 <= i < |cs| ==> !cs[i].unread
  {
    UnreadCountZero(cs);
    FilterLength(cs, IsUnread);
    |Filter(cs, IsUnread)|
  }

  lemma {:induction false} UnreadCountZero(cs: seq<Client>)
    ensures Count(cs, IsUnread) == 0 <==> forall i :: 0 <= i < |cs| ==> !cs[i].unread
  {
    if |cs| > 0 {
      UnreadCountZero(cs[1..]);
      assert forall i :: 1 <= i < |cs| ==> cs[i] == cs[1..][i - 1];
    }
  }

  /** The clients with id `id` that are still unread. */
  function UnreadWithId(id: string): Client -> bool {
    (c: Client) => c.unread && c.id == id
  }

  /**
   * Updating the clients with one id by an update that marks them read
   * lowers the counter by exactly the number of those clients that were unread.
   */
  lemma {:induction false} UnreadAfterUpdate(cs: seq<Client>, id: string, f: Client -> Client)
    requires forall c :: !f(c).unread
    ensures UnreadCount(UpdateClients(cs, id, f)) + Count(cs, UnreadWithId(id)) == UnreadCount(cs)
  {
    if |cs| > 0 {
      UnreadAfterUpdate(cs[1..], id, f);
      assert UpdateClients(cs, id, f)[1..] == UpdateClients(cs[1..], id, f);
    }
  }

  /** Opening a thread clears exactly the selected client's unread marks from the counter. */
  lemma OpenThreadCount(inbox: Inbox, store: map<string, seq<Message>>)
    requires inbox.selected.Some?
    ensures UnreadCount(OpenThread(inbox, store).clients) + Count(inbox.clients, UnreadWithId(inbox.selected.value.id))
         == UnreadCount(inbox.clients)
  {
    UnreadAfterUpdate(inbox.clients, inbox.selected.value.id, MarkRead);
  }

  /** A send never raises the counter, and lowers it by the selected client's unread marks. */
  lemma SendCount(inbox: Inbox, msgId: string, now: int)
    requires CanSend(inbox)
    ensures UnreadCount(Send(inbox, msgId, now).0.clients) + Count(inbox.clients, UnreadWithId(inbox.selected.value.id))
         == UnreadCount(inbox.clients)
  {
    UnreadAfterUpdate(inbox.clients, inbox.selected.value.id, Summarise(OrElse(inbox.draft, ImageSummary), now));
  }

  /** An update that is idempotent and keeps the id makes `UpdateClients` idempotent. */
  lemma {:induction false} UpdateTwice(cs: seq<Client>, id: string, f: Client -> Client)
    requires forall c :: f(c).id == c.id && f(f(c)) == f(c)
    ensures UpdateClients(UpdateClients(cs, id, f), id, f) == UpdateClients(cs, id, f)
  {
    if |cs| > 0 {
      UpdateTwice(cs[1..], id, f);
      assert UpdateClients(cs, id, f)[1..] == UpdateClients(cs[1..], id, f);
    }
  }

  /** Running the thread-open effect again on its own result changes nothing. */
  lemma OpenThreadIdempotent(inbox: Inbox, store: map<string, seq<Message>>)
    ensures OpenThread(OpenThread(inbox, store), store) == OpenThread(inbox, store)
  {
    if inbox.selected.Some? {
      UpdateTwice(inbox.clients, inbox.selected.value.id, MarkRead);
    }
  }

  /** Messages with the same timestamp keep their stored order in the opened thread. */
  lemma OpenThreadStable(inbox: Inbox, store: map<string, seq<Message>>, t: int)
    requires inbox.selected.Some?
    ensures WithKey(OpenThread(inbox, store).messages, Timestamp, t)
         == WithKey(ThreadOf(store, inbox.selected.value.id), Timestamp, t)
  {
    SortByStable(ThreadOf(store, inbox.selected.value.id), Timestamp, t);
  }

  /** The input is cleared by a send, so sending again straight away is refused. */
  lemma SendTwiceSendsOnce(inbox: Inbox, msgId: string, msgId2: string, now: int, later: int)
    requires CanSend(inbox)
    ensures var next := Send(inbox, msgId, now).0;
      Send(next, msgId2, later) == (next, None)
  {
    var next := Send(inbox, msgId, now).0;
    assert next.draft == "" && next.attachment.None?;
    assert AllSpace(next.draft);
  }

  /**
   * The summary takes the raw text: a blank text sent with a file leaves the
   * blank text as the client's last message, while the message itself has
   * no text.
   */
  lemma BlankTextWithFile(inbox: Inbox, msgId: string, now: int)
    requires inbox.selected.Some? && inbox.attachment.Some?
    requires inbox.draft == " "
    ensures var next := Send(inbox, msgId, now).0;
      && Last(next.messages).text.None?
      && forall i :: 0 <= i < |next.clients| && inbox.clients[i].id == inbox.selected.value.id ==>
           next.clients[i].lastMessage == " "
  {
    assert IsJsSpace(' ');
    assert AllSpace(inbox.draft);
  }

  function Last<T>(s: seq<T>): T
    requires |s| > 0
  {
    s[|s| - 1]
  }

  /** The first character of each part, empty parts contributing nothing (`part[0]` is undefined there and `join` drops it). */
  function FirstChars(parts: seq<string>): string {
    if |parts| == 0 then []
    else (if parts[0] == [] then [] else [parts[0][0]]) + FirstChars(parts[1..])
  }

  /** `getInitials`: the upper-cased first letters of the space-separated words. */
  function Initials(name: string): (r: string)
    ensures |r| <= |name|
    ensures r == ToUpper(WordStarts(name, true))
  {
    InitialsByScan(name, true);
    WordStartsLength(name, true);
    ToUpper(FirstChars(Split(name, ' ')))
  }

  /**
   * An independent reading of the initials: scan the name and keep each
   * non-space character that opens the string or follows a space.
   */
  function WordStarts(s: string, afterSpace: bool): string {
    if |s| == 0 then []
    else (if afterSpace && s[0] != ' ' then [s[0]] else []) + WordStarts(s[1..], s[0] == ' ')
  }

  lemma {:induction false} WordStartsLength(s: string, afterSpace: bool)
    ensures |WordStarts(s, afterSpace)| <= |s|
  {
    if |s| > 0 {
      WordStartsLength(s[1..], s[0] == ' ');
    }
  }

  /**
   * Splitting at spaces and taking first characters is the scan: at a word
   * boundary the scan yields the first characters of all the parts, inside a
   * word those of all parts but the current one.
   */
  lemma {:induction false} InitialsByScan(s: string, afterSpace: bool)
    ensures WordStarts(s, afterSpace)
         == if afterSpace then FirstChars(Split(s, ' ')) else FirstChars(Split(s, ' ')[1..])
  {
    if |s| > 0 {
      var rest := Split(s[1..], ' ');
      InitialsByScan(s[1..], s[0] == ' ');
      if s[0] == ' ' {
        assert Split(s, ' ') == [""] + rest;
        assert (["" ] + rest)[1..] == rest;
      } else {
        var parts := Split(s, ' ');
        assert parts == [[s[0]] + rest[0]] + rest[1..];
        assert parts[1..] == rest[1..];
      }
    }
  }
}

=== FILE: notices.dfy ===
/** The toast notifications the admin components raise after an action. */
module Notices {

  datatype Toast = Success(message: string) | Error(message: string)
}

=== FILE: portfolio_admin.dfy ===
/**
 * The admin portfolio manager: the guarded add, edit and delete handlers as
 * pure transformations of the list of portfolio items. The upload, the
 * simulated latency and the dialog flags are not modelled; the id of a new
 * item and the image preview are inputs.
 */
module PortfolioAdmin {
  import opened Text
  import opened Sequences
  import opened Notices
  import opened Wrappers

  /** A portfolio entry as the admin list holds it. */
  datatype AdminItem = AdminItem(
    id: string,
    title: string,
    style: string,
    description: string,
    imageUrl: string,
    order: int)

  /** The three text fields of the add and edit dialogs. */
  datatype Draft = Draft(title: string, style: string, description: string)

  const PlaceholderImage: string := "/portfolio/placeholder.jpg"
  const NoFileMessage: string := "Please select an image to upload"
  const MissingFieldsMessage: string := "Please fill in at least the title and style fields"
  const AddedMessage: string := "Portfolio item added successfully"

  /** The list the manager starts from. */
  const DemoItems: seq<AdminItem> := [
    AdminItem("1", "Geometric Wolf", "Geometric",
      "Precision geometric wolf design with fine line work and sacred geometry elements.",
      "/portfolio/tattoo1.jpg", 1),
    AdminItem("2", "Traditional Rose", "Traditional",
      "Bold traditional rose with vibrant colors and strong outlines.",
      "/portfolio/tattoo2.jpg", 2),
    AdminItem("3", "Realistic Lion", "Realism",
      "Photorealistic lion portrait with detailed shading and texture.",
      "/portfolio/tattoo3.jpg", 3)
  ]

  /** No item of `items` carries `id`. */
  predicate FreshId(items: seq<AdminItem>, id: string) {
    forall i :: 0 <= i < |items| ==> items[i].id != id
  }

  /** Every item's `order` is its 1-based position in the list. */
  predicate OrdersArePositions(items: seq<AdminItem>) {
    forall i :: 0 <= i < |items| ==> items[i].order == i + 1
  }

  /**
   * The item a successful add appends: the draft's fields, the preview (or
   * the placeholder when there is none) and the next position as `order`.
   */
  function NewItem(items: seq<AdminItem>, preview: string, draft: Draft, newId: string): (item: AdminItem)
    ensures item.id == newId && item.order == |items| + 1
    ensures item.title == draft.title && item.style == draft.style && item.description == draft.description
    ensures preview != "" ==> item.imageUrl == preview
    ensures preview == "" ==> item.imageUrl == PlaceholderImage
  {
    AdminItem(newId, draft.title, draft.style, draft.description, OrElse(preview, PlaceholderImage), |items| + 1)
  }

  /** The add form can be submitted: a file is chosen, title and style are filled. */
  predicate CanAdd(fileSelected: bool, draft: Draft) {
    fileSelected && draft.title != "" && draft.style != ""
  }

  /**
   * `handleAddSubmit`. Without a file, or with an empty title or style, the
   * list is unchanged and an error toast names the problem (the file check
   * comes first); otherwise one item is appended.
   */
  function Add(items: seq<AdminItem>, fileSelected: bool, preview: string, draft: Draft, newId: string)
    : (r: (seq<AdminItem>, Toast))
    ensures !fileSelected ==> r == (items, Error(NoFileMessage))
    ensures fileSelected && !CanAdd(fileSelected, draft) ==> r == (items, Error(MissingFieldsMessage))
    ensures r.1.Success? <==> CanAdd(fileSelected, draft)
    ensures r.1.Success? ==>
      && |r.0| == |items| + 1
      && r.0[..|items|] == items
      && r.0[|items|] == NewItem(items, preview, draft, newId)
      && r.1 == Success(AddedMessage)
  {
    if !fileSelected then (items, Error(NoFileMessage))
    else if draft.title == "" || draft.style == "" then (items, Error(MissingFieldsMessage))
    else (items + [NewItem(items, preview, draft, newId)], Success(AddedMessage))
  }

  /** Whether the edit handler rewrites `item` for this selection. */
  predicate Targets(selected: Option<AdminItem>, item: AdminItem) {
    selected.Some? && item.id == selected.value.id
  }

  /**
   * The edit handler on one item: a targeted item takes the dialog's title,
   * style and description and keeps its id, image and order; any other item
   * is returned as it is.
   */
  function EditItem(item: AdminItem, selected: Option<AdminItem>, draft: Draft): (r: AdminItem)
    ensures r.id == item.id && r.imageUrl == item.imageUrl && r.order == item.order
    ensures !Targets(selected, item) ==> r == item
    ensures Targets(selected, item) ==>
      r.title == draft.title && r.style == draft.style && r.description == draft.description
  {
    if Targets(selected, item) then
      item.(title := draft.title, style := draft.style, description := draft.description)
    else item
  }

  /**
   * `handleEditSubmit`: every item whose id is the selected item's id is
   * rewritten, the list keeps its length and order, and with nothing
   * selected it is returned as it is.
   */
  function Edit(items: seq<AdminItem>, selected: Option<AdminItem>, draft: Draft): (r: seq<AdminItem>)
    ensures |r| == |items|
    ensures selected.None? ==> r == items
    ensures forall i :: 0 <= i < |r| ==> r[i] == EditItem(items[i], selected, draft)
  {
    if |items| == 0 then []
    else [EditItem(items[0], selected, draft)] + Edit(items[1..], selected, draft)
  }

  /** The filter the delete handler applies: keep items whose id differs. */
  function KeepsOtherThan(id: string): AdminItem -> bool {
    (item: AdminItem) => item.id != id
  }

  /**
   * `handleDeleteSubmit`: every item with the selected item's id is removed,
   * the others stay; with nothing selected the list is returned as it is.
   */
  function Delete(items: seq<AdminItem>, selected: Option<AdminItem>): (r: seq<AdminItem>)
    ensures selected.None? ==> r == items
    ensures selected.Some? ==> FreshId(r, selected.value.id)
    ensures forall i :: 0 <= i < |items| && !Targets(selected, items[i]) ==> items[i] in r
    ensures multiset(r) <= multiset(items)
  {
    if selected.None? then items else Filter(items, KeepsOtherThan(selected.value.id))
  }

  /** The starting list numbers its items by position. */
  lemma DemoOrdersArePositions()
    ensures OrdersArePositions(DemoItems)
  {
  }

  /** Adding keeps the numbering by position. */
  lemma AddKeepsPositions(items: seq<AdminItem>, fileSelected: bool, preview: string, draft: Draft, newId: string)
    requires OrdersArePositions(items)
    ensures OrdersArePositions(Add(items, fileSelected, preview, draft, newId).0)
  {
    var r := Add(items, fileSelected, preview, draft, newId).0;
    if CanAdd(fileSelected, draft) {
      forall i | 0 <= i < |r| ensures r[i].order == i + 1 {
        if i < |items| {
          assert r[i] == r[..|items|][i];
        }
      }
    }
  }

  /** Editing keeps the numbering by position. */
  lemma EditKeepsPositions(items: seq<AdminItem>, selected: Option<AdminItem>, draft: Draft)
    requires OrdersArePositions(items)
    ensures OrdersArePositions(Edit(items, selected, draft))
  {
  }

  /**
   * Deleting does not renumber, so a later add can repeat an order: from two
   * items numbered 1 and 2, delete the first and add one; both remaining
   * items then have order 2.
   */
  lemma DeleteThenAddRepeatsOrder(x: AdminItem, y: AdminItem, preview: string, draft: Draft, newId: string)
    requires OrdersArePositions([x, y]) && x.id != y.id && CanAdd(true, draft)
    ensures var r := Add(Delete([x, y], Some(x)), true, preview, draft, newId).0;
      |r| == 2 && r[0] == y && r[0].order == r[1].order
  {
    var p := KeepsOtherThan(x.id);
    FilterConcat([x], [y], p);
    assert Delete([x, y], Some(x)) == [y];
  }

  /** Deleting a freshly added item gives back the list as it was, whatever the guards decided. */
  lemma DeleteUndoesAdd(items: seq<AdminItem>, fileSelected: bool, preview: string, draft: Draft, newId: string)
    requires FreshId(items, newId)
    ensures Delete(Add(items, fileSelected, preview, draft, newId).0, Some(NewItem(items, preview, draft, newId))) == items
  {
    var p := KeepsOtherThan(newId);
    var added := Add(items, fileSelected, preview, draft, newId).0;
    FilterAll(items, p);
    if CanAdd(fileSelected, draft) {
      assert added == items + [NewItem(items, preview, draft, newId)];
      FilterConcat(items, [NewItem(items, preview, draft, newId)], p);
    }
  }

  /** Deleting an item after editing it is the same as deleting it straight away. */
  lemma {:induction false} DeleteAfterEdit(items: seq<AdminItem>, selected: Option<AdminItem>, draft: Draft)
    ensures Delete(Edit(items, selected, draft), selected) == Delete(items, selected)
  {
    if |items| > 0 && selected.Some? {
      var p := KeepsOtherThan(selected.value.id);
      var e := Edit(items, selected, draft);
      DeleteAfterEdit(items[1..], selected, draft);
      assert items == [items[0]] + items[1..];
      assert e == [e[0]] + Edit(items[1..], selected, draft);
      FilterConcat([items[0]], items[1..], p);
      FilterConcat([e[0]], Edit(items[1..], selected, draft), p);
    }
  }

  /** A second delete of the same item changes nothing. */
  lemma DeleteIdempotent(items: seq<AdminItem>, selected: Option<AdminItem>)
    ensures Delete(Delete(items, selected), selected) == Delete(items, selected)
  {
    if selected.Some? {
      FilterAll(Delete(items, selected), KeepsOtherThan(selected.value.id));
    }
  }

  /** Saving the same edit twice is the same as saving it once. */
  lemma {:induction false} EditIdempotent(items: seq<AdminItem>, selected: Option<AdminItem>, draft: Draft)
    ensures Edit(Edit(items, selected, draft), selected, draft) == Edit(items, selected, draft)
  {
    if |items| > 0 {
      EditIdempotent(items[1..], selected, draft);
    }
  }

  /** Deleting keeps the relative order of the items that stay: it distributes over concatenation. */
  lemma DeleteKeepsOrder(a: seq<AdminItem>, b: seq<AdminItem>, selected: Option<AdminItem>)
    ensures Delete(a + b, selected) == Delete(a, selected) + Delete(b, selected)
  {
    if selected.Some? {
      FilterConcat(a, b, KeepsOtherThan(selected.value.id));
    }
  }
}

=== FILE: portfolio_query.dfy ===
/**
 * The public portfolio gallery's query (`fetchPortfolioItems`): keep the
 * items whose style matches the requested one case-insensitively, order them
 * newest first, and keep at most `limit` of them.
 */
module PortfolioQuery {
  import opened Wrappers
  import opened Text
  import opened Sequences

  /** A gallery entry; `createdAt` is its creation time in milliseconds. */
  datatype PortfolioItem = PortfolioItem(
    id: string,
    imageUrl: string,
    title: string,
    style: string,
    description: string,
    createdAt: int)

  predicate MatchesStyle(style: string, item: PortfolioItem) {
    EqualsIgnoreCase(item.style, style)
  }

  /** A style filter is applied only when a non-empty style is given. */
  predicate HasStyle(style: Option<string>) {
    style.Some? && style.value != ""
  }

  /** A limit is applied only when it is given and positive. */
  predicate HasLimit(limit: Option<int>) {
    limit.Some? && limit.value > 0
  }

  function FilterByStyle(items: seq<PortfolioItem>, style: Option<string>): (r: seq<PortfolioItem>)
    ensures !HasStyle(style) ==> r == items
    ensures HasStyle(style) ==> forall i :: 0 <= i < |r| ==> MatchesStyle(style.value, r[i])
    ensures HasStyle(style) ==> forall i :: 0 <= i < |items| && MatchesStyle(style.value, items[i]) ==> items[i] in r
    ensures multiset(r) <= multiset(items)
  {
    if HasStyle(style) then Filter(items, (item: PortfolioItem) => MatchesStyle(style.value, item)) else items
  }

  /** The sort key that puts later `createdAt` first. */
  function NewestKey(item: PortfolioItem): int {
    -item.createdAt
  }

  ghost predicate NewestFirst(s: seq<PortfolioItem>) {
    forall i, j :: 0 <= i < j < |s| ==> s[i].createdAt >= s[j].createdAt
  }

  function Min(a: int, b: int): int {
    if a <= b then a else b
  }

  /** `slice(0, limit)` when a positive limit is given. */
  function ApplyLimit(items: seq<PortfolioItem>, limit: Option<int>): (r: seq<PortfolioItem>)
    ensures !HasLimit(limit) ==> r == items
    ensures HasLimit(limit) ==> |r| == Min(limit.value, |items|) && r == items[..|r|]
  {
    if HasLimit(limit) then items[..Min(limit.value, |items|)] else items
  }

  /**
   * `fetchPortfolioItems` over the stored `items`: the matching items, newest
   * first, cut to the limit; nothing is invented or duplicated.
   */
  function FetchPortfolioItems(items: seq<PortfolioItem>, style: Option<string>, limit: Option<int>): (r: seq<PortfolioItem>)
    ensures NewestFirst(r)
    ensures multiset(r) <= multiset(items)
    ensures HasStyle(style) ==> forall i :: 0 <= i < |r| ==> MatchesStyle(style.value, r[i])
    ensures !HasLimit(limit) ==> multiset(r) == multiset(FilterByStyle(items, style))
    ensures HasLimit(limit) ==> |r| == Min(limit.value, |FilterByStyle(items, style)|)
    ensures !HasStyle(style) && !HasLimit(limit) ==> multiset(r) == multiset(items)
  {
    var filtered := FilterByStyle(items, style);
    var sorted := SortBy(filtered, NewestKey);
    LimitFacts(sorted, limit);
    AllMatchKept(filtered, ApplyLimit(sorted, limit), style);
    ApplyLimit(sorted, limit)
  }

  /** Every element drawn from a list of matches is a match. */
  lemma AllMatchKept(filtered: seq<PortfolioItem>, r: seq<PortfolioItem>, style: Option<string>)
    requires HasStyle(style) ==> forall i :: 0 <= i < |filtered| ==> MatchesStyle(style.value, filtered[i])
    requires multiset(r) <= multiset(filtered)
    ensures HasStyle(style) ==> forall i :: 0 <= i < |r| ==> MatchesStyle(style.value, r[i])
  {
    if HasStyle(style) {
      forall i | 0 <= i < |r| ensures MatchesStyle(style.value, r[i]) {
        assert r[i] in multiset(r);
        assert r[i] in filtered;
      }
    }
  }

  lemma LimitFacts(sorted: seq<PortfolioItem>, limit: Option<int>)
    requires SortedBy(sorted, NewestKey)
    ensures var r := ApplyLimit(sorted, limit); NewestFirst(r) && multiset(r) <= multiset(sorted)
  {
    var r := ApplyLimit(sorted, limit);
    assert sorted == r + sorted[|r|..];
    forall i, j | 0 <= i < j < |r| ensures r[i].createdAt >= r[j].createdAt {
      assert NewestKey(sorted[i]) <= NewestKey(sorted[j]);
    }
  }

  /**
   * The result is a prefix of the matching items in stable newest-first
   * order: all of them without a limit, the first `min(limit, n)` with one.
   */
  lemma FetchIsSortedPrefix(items: seq<PortfolioItem>, style: Option<string>, limit: Option<int>)
    ensures var sorted := SortBy(FilterByStyle(items, style), NewestKey);
      var r := FetchPortfolioItems(items, style, limit);
      && |r| <= |sorted| && r == sorted[..|r|]
      && (!HasLimit(limit) ==> r == sorted)
      && (HasLimit(limit) ==> |r| == Min(limit.value, |sorted|))
  {
  }

  /**
   * The limit keeps the newest matches: a matching item left out is no newer
   * than any item kept.
   */
  lemma KeepsNewest(items: seq<PortfolioItem>, style: Option<string>, limit: Option<int>, x: PortfolioItem)
    requires x in FilterByStyle(items, style)
    requires x !in FetchPortfolioItems(items, style, limit)
    ensures forall y :: y in FetchPortfolioItems(items, style, limit) ==> y.createdAt >= x.createdAt
  {
    var filtered := FilterByStyle(items, style);
    var sorted := SortBy(filtered, NewestKey);
    FetchIsSortedPrefix(items, style, limit);
    assert x in multiset(sorted) by {
      assert x in multiset(filtered);
    }
    PrefixKeepsNewest(sorted, FetchPortfolioItems(items, style, limit), x);
  }

  /** In a newest-first list, an item past a prefix is no newer than the prefix. */
  lemma PrefixKeepsNewest(sorted: seq<PortfolioItem>, r: seq<PortfolioItem>, x: PortfolioItem)
    requires SortedBy(sorted, NewestKey)
    requires |r| <= |sorted| && r == sorted[..|r|]
    requires x in sorted && x !in r
    ensures forall y :: y in r ==> y.createdAt >= x.createdAt
  {
    assert sorted == r + sorted[|r|..];
    assert x in sorted[|r|..];
    PrefixKeysBelow(sorted, NewestKey, |r|, x);
    forall y | y in r ensures y.createdAt >= x.createdAt {
      var i :| 0 <= i < |r| && r[i] == y;
      assert NewestKey(sorted[i]) <= NewestKey(x);
    }
  }

  /** Items created at the same moment keep their stored order. */
  lemma SameTimeKeepsOrder(items: seq<PortfolioItem>, style: Option<string>, t: int)
    ensures WithKey(FetchPortfolioItems(items, style, None), NewestKey, -t)
         == WithKey(FilterByStyle(items, style), NewestKey, -t)
  {
    FetchIsSortedPrefix(items, style, None);
    NewestSortStable(FilterByStyle(items, style), t);
  }

  lemma NewestSortStable(filtered: seq<PortfolioItem>, t: int)
    ensures WithKey(SortBy(filtered, NewestKey), NewestKey, -t) == WithKey(filtered, NewestKey, -t)
  {
    SortByStable(filtered, NewestKey, -t);
  }
}

=== FILE: registration.dfy ===
/**
 * The registration form: the field rules of its validation schema, the
 * password-confirmation rule, the profile record stored for a new account
 * and the message shown when account creation fails.
 *
 * String lengths count characters. Whether the e-mail address is well formed
 * is decided by the validation library and is an input here.
 */
module Registration {
  import opened Wrappers
  import opened Text
  import opened Notices

  datatype Field = FirstName | LastName | Email | Password | ConfirmPassword

  /** One validation error, attached to the field it is reported on. */
  datatype Issue = Issue(path: Field, message: string)

  /** The submitted values; the two optional fields may be absent. */
  datatype Form = Form(
    firstName: string,
    lastName: string,
    email: string,
    password: string,
    confirmPassword: string,
    phoneNumber: Option<string>,
    howDidYouFindUs: Option<string>)

  const NameMin: nat := 2
  const NameMax: nat := 50
  const PasswordMin: nat := 8
  const PasswordMax: nat := 100

  const FirstNameShort: string := "First name must be at least 2 characters"
  const LastNameShort: string := "Last name must be at least 2 characters"
  /** The library's own message for a failed `max(50)`, the schema giving none. */
  const NameLong: string := "String must contain at most 50 character(s)"
  const InvalidEmail: string := "Please enter a valid email address"
  const PasswordShort: string := "Password must be at least 8 characters"
  /** The library's own message for a failed `max(100)`. */
  const PasswordLong: string := "String must contain at most 100 character(s)"
  const NoUpper: string := "Password must contain at least one uppercase letter"
  const NoLower: string := "Password must contain at least one lowercase letter"
  const NoDigit: string := "Password must contain at least one number"
  const Mismatch: string := "Passwords do not match"

  const EmailInUseCode: string := "auth/email-already-in-use"
  const EmailInUseMessage: string := "This email is already in use. Please try a different email or sign in."
  const GenericFailureMessage: string := "An error occurred during registration. Please try again."
  const CreatedToast: string := "Account created successfully!"
  const FailedToast: string := "Registration failed. Please try again."

  /** The name rule: between 2 and 50 characters. */
  predicate NameOk(s: string) {
    NameMin <= |s| <= NameMax
  }

  /** `/[A-Z]/.test(s)` and its two siblings. */
  predicate HasUpper(s: string) {
    exists i :: 0 <= i < |s| && IsUpperAscii(s[i])
  }

  predicate HasLower(s: string) {
    exists i :: 0 <= i < |s| && IsLowerAscii(s[i])
  }

  predicate HasDigit(s: string) {
    exists i :: 0 <= i < |s| && IsDigitAscii(s[i])
  }

  /** The password rule: 8 to 100 characters with an upper-case letter, a lower-case letter and a digit. */
  predicate PasswordOk(s: string) {
    PasswordMin <= |s| <= PasswordMax && HasUpper(s) && HasLower(s) && HasDigit(s)
  }

  /** The issue a check reports when it fails. */
  function Check(ok: bool, field: Field, message: string): (r: seq<Issue>)
    ensures r == [] <==> ok
    ensures !ok ==> r == [Issue(field, message)]
  {
    if ok then [] else [Issue(field, message)]
  }

  /** The checks of one name field, all of them run, in schema order. */
  function NameIssues(field: Field, s: string, shortMessage: string): (r: seq<Issue>)
    ensures r == [] <==> NameOk(s)
    ensures forall k :: 0 <= k < |r| ==> r[k].path == field
    ensures |s| < NameMin ==> Issue(field, shortMessage) in r
    ensures |s| > NameMax ==> Issue(field, NameLong) in r
  {
    Check(|s| >= NameMin, field, shortMessage) + Check(|s| <= NameMax, field, NameLong)
  }

  /** The password checks: length bounds, then the three character classes. */
  function PasswordIssues(s: string): (r: seq<Issue>)
    ensures r == [] <==> PasswordOk(s)
    ensures forall k :: 0 <= k < |r| ==> r[k].path == Password
    ensures !HasUpper(s) ==> Issue(Password, NoUpper) in r
    ensures !HasLower(s) ==> Issue(Password, NoLower) in r
    ensures !HasDigit(s) ==> Issue(Password, NoDigit) in r
  {
    Check(|s| >= PasswordMin, Password, PasswordShort)
      + Check(|s| <= PasswordMax, Password, PasswordLong)
      + Check(HasUpper(s), Password, NoUpper)
      + Check(HasLower(s), Password, NoLower)
      + Check(HasDigit(s), Password, NoDigit)
  }

  /**
   * The whole schema: the field checks in field order, then the
   * confirmation rule, reported on `confirmPassword`. The field checks never
   * stop the confirmation rule from running.
   */
  function Validate(form: Form, emailValid: bool): (r: seq<Issue>)
    ensures r == [] <==>
      NameOk(form.firstName) && NameOk(form.lastName) && emailValid
      && PasswordOk(form.password) && form.password == form.confirmPassword
    ensures Issue(ConfirmPassword, Mismatch) in r <==> form.password != form.confirmPassword
    ensures forall k :: 0 <= k < |r| && r[k].path == ConfirmPassword ==> r[k].message == Mismatch
  {
    NameIssues(FirstName, form.firstName, FirstNameShort) + LaterIssues(form, emailValid)
  }

  /** The checks after the first name's: last name, e-mail, password, confirmation. */
  function LaterIssues(form: Form, emailValid: bool): (r: seq<Issue>)
    ensures r == [] <==>
      NameOk(form.lastName) && emailValid && PasswordOk(form.password) && form.password == form.confirmPassword
    ensures Issue(ConfirmPassword, Mismatch) in r <==> form.password != form.confirmPassword
    ensures forall k :: 0 <= k < |r| ==> r[k].path != FirstName
    ensures forall k :: 0 <= k < |r| && r[k].path == ConfirmPassword ==> r[k].message == Mismatch
  {
    NameIssues(LastName, form.lastName, LastNameShort)
      + Check(emailValid, Email, InvalidEmail)
      + PasswordIssues(form.password)
      + Check(form.password == form.confirmPassword, ConfirmPassword, Mismatch)
  }

  /** The issues reported on one field. */
  function IssuesOn(issues: seq<Issue>, field: Field): (r: seq<Issue>)
    ensures forall k :: 0 <= k < |r| ==> r[k].path == field && r[k] in issues
    ensures forall k :: 0 <= k < |issues| && issues[k].path == field ==> issues[k] in r
  {
    if |issues| == 0 then []
    else (if issues[0].path == field then [issues[0]] else []) + IssuesOn(issues[1..], field)
  }

  /** Issues on one field depend on that field alone: a name's issues are its name checks. */
  lemma FirstNameIssuesOnly(form: Form, emailValid: bool)
    ensures IssuesOn(Validate(form, emailValid), FirstName) == NameIssues(FirstName, form.firstName, FirstNameShort)
  {
    var a := NameIssues(FirstName, form.firstName, FirstNameShort);
    var rest := LaterIssues(form, emailValid);
    IssuesOnAll(a, FirstName);
    IssuesOnNone(rest, FirstName);
    IssuesOnConcat(a, rest, FirstName);
  }

  lemma {:induction false} IssuesOnConcat(a: seq<Issue>, b: seq<Issue>, field: Field)
    ensures IssuesOn(a + b, field) == IssuesOn(a, field) + IssuesOn(b, field)
  {
    if |a| > 0 {
      assert (a + b)[1..] == a[1..] + b;
      IssuesOnConcat(a[1..], b, field);
    } else {
      assert a + b == b;
    }
  }

  lemma {:induction false} IssuesOnAll(a: seq<Issue>, field: Field)
    requires forall k :: 0 <= k < |a| ==> a[k].path == field
    ensures IssuesOn(a, field) == a
  {
    if |a| > 0 {
      IssuesOnAll(a[1..], field);
    }
  }

  lemma {:induction false} IssuesOnNone(a: seq<Issue>, field: Field)
    requires forall k :: 0 <= k < |a| ==> a[k].path != field
    ensures IssuesOn(a, field) == []
  {
    if |a| > 0 {
      IssuesOnNone(a[1..], field);
    }
  }

  /** A password that passes the rule: the rule is satisfiable at its minimum length. */
  lemma MinimalPassword()
    ensures PasswordOk("Abcdefg1")
  {
    assert IsUpperAscii("Abcdefg1"[0]);
    assert IsLowerAscii("Abcdefg1"[1]);
    assert IsDigitAscii("Abcdefg1"[7]);
  }

  /** The name the account is given: first name, one space, last name. */
  function DisplayName(firstName: string, lastName: string): (r: string)
    ensures |r| == |firstName| + 1 + |lastName|
    ensures r[..|firstName|] == firstName && r[|firstName|] == ' ' && r[|firstName| + 1..] == lastName
  {
    firstName + " " + lastName
  }

  /** Names without spaces are recovered by splitting the display name at spaces. */
  lemma DisplayNameSplits(firstName: string, lastName: string)
    requires ' ' !in firstName && ' ' !in lastName
    ensures Split(DisplayName(firstName, lastName), ' ') == [firstName, lastName]
  {
    var parts := [firstName, lastName];
    assert Join(parts, ' ') == DisplayName(firstName, lastName) by {
      assert parts[1..] == [lastName];
    }
    SplitJoin(parts, ' ');
  }

  /** The document stored for a new account. */
  datatype Profile = Profile(
    firstName: string,
    lastName: string,
    email: string,
    phoneNumber: string,
    howDidYouFindUs: string,
    createdAt: string,
    isAdmin: bool)

  /** An absent optional field is stored as the empty string (`value || ""`). */
  function Stored(value: Option<string>): (r: string)
    ensures value.None? ==> r == ""
    ensures value.Some? ==> r == value.value
  {
    OrElse(value.GetOr(""), "")
  }

  /** The profile written for a validated form; never an administrator. */
  function NewProfile(form: Form, createdAt: string): (p: Profile)
    ensures !p.isAdmin
    ensures p.firstName == form.firstName && p.lastName == form.lastName && p.email == form.email
    ensures p.phoneNumber == Stored(form.phoneNumber) && p.howDidYouFindUs == Stored(form.howDidYouFindUs)
    ensures p.createdAt == createdAt
  {
    Profile(form.firstName, form.lastName, form.email,
      Stored(form.phoneNumber), Stored(form.howDidYouFindUs), createdAt, false)
  }

  /** The message shown under the form for a failed account creation. */
  function FailureMessage(code: string): (m: string)
    ensures m == EmailInUseMessage <==> code == EmailInUseCode
    ensures m == GenericFailureMessage <==> code != EmailInUseCode
  {
    if code == EmailInUseCode then EmailInUseMessage else GenericFailureMessage
  }

  /** Where a successful registration sends the browser. */
  const LoginPath: string := "/login"

  /**
   * What a submission ends in: a registration also names the route the
   * router is pushed to; a failure leaves the browser on the form.
   */
  datatype Outcome =
    | Registered(displayName: string, profile: Profile, toast: Toast, next: string)
    | Failed(authError: string, toast: Toast)

  /**
   * `onSubmit` for a form that passed validation. `failure` is the error code
   * the authentication or database call failed with, if any.
   */
  function Submit(form: Form, createdAt: string, failure: Option<string>): (r: Outcome)
    ensures r.Registered? <==> failure.None?
    ensures r.Registered? ==>
      && r.displayName == DisplayName(form.firstName, form.lastName)
      && r.profile == NewProfile(form, createdAt)
      && r.toast == Success(CreatedToast)
      && r.next == LoginPath
    ensures r.Failed? ==> r.authError == FailureMessage(failure.value) && r.toast == Error(FailedToast)
  {
    match failure
    case None => Registered(DisplayName(form.firstName, form.lastName), NewProfile(form, createdAt), Success(CreatedToast), LoginPath)
    case Some(code) => Failed(FailureMessage(code), Error(FailedToast))
  }
}

=== FILE: sequences.dfy ===
/**
 * The two array operations the components use on lists of records:
 * `Array.prototype.filter` and the stable `Array.prototype.sort` that
 * ECMAScript 2019 and later guarantee, the latter over an integer sort key.
 */
module Sequences {

  /** `s.filter(p)`: the elements satisfying `p`, in their original order. */
  function Filter<T>(s: seq<T>, p: T -> bool): (r: seq<T>)
    ensures |r| <= |s|
    ensures forall i :: 0 <= i < |r| ==> p(r[i])
    ensures forall i :: 0 <= i < |r| ==> r[i] in s
    ensures forall i :: 0 <= i < |s| && p(s[i]) ==> s[i] in r
    ensures multiset(r) <= multiset(s)
  {
    if |s| == 0 then []
    else
      assert s == [s[0]] + s[1..];
      if p(s[0]) then [s[0]] + Filter(s[1..], p) else Filter(s[1..], p)
  }

  /** Number of elements satisfying `p`. */
  function Count<T>(s: seq<T>, p: T -> bool): (n: nat)
    ensures n <= |s|
  {
    if |s| == 0 then 0 else (if p(s[0]) then 1 else 0) + Count(s[1..], p)
  }

  /** `s.filter(p).length` is the count of elements satisfying `p`. */
  lemma {:induction false} FilterLength<T>(s: seq<T>, p: T -> bool)
    ensures |Filter(s, p)| == Count(s, p)
  {
    if |s| > 0 {
      FilterLength(s[1..], p);
    }
  }

  /** Counting over a sequence extended by one element. */
  lemma {:induction false} CountSnoc<T>(s: seq<T>, x: T, p: T -> bool)
    ensures Count(s + [x], p) == Count(s, p) + (if p(x) then 1 else 0)
  {
    if |s| > 0 {
      assert (s + [x])[1..] == s[1..] + [x];
      CountSnoc(s[1..], x, p);
    }
  }

  /** Filtering with a predicate that every element satisfies keeps the sequence. */
  lemma {:induction false} FilterAll<T>(s: seq<T>, p: T -> bool)
    requires forall i :: 0 <= i < |s| ==> p(s[i])
    ensures Filter(s, p) == s
  {
    if |s| > 0 {
      FilterAll(s[1..], p);
    }
  }

  /** Filtering distributes over concatenation, so it keeps relative order. */
  lemma {:induction false} FilterConcat<T>(a: seq<T>, b: seq<T>, p: T -> bool)
    ensures Filter(a + b, p) == Filter(a, p) + Filter(b, p)
  {
    if |a| > 0 {
      assert (a + b)[1..] == a[1..] + b;
      FilterConcat(a[1..], b, p);
    } else {
      assert a + b == b;
    }
  }

  /** `key(s[i])` never decreases along `s`. */
  ghost predicate SortedBy<T>(s: seq<T>, key: T -> int) {
    forall i, j :: 0 <= i < j < |s| ==> key(s[i]) <= key(s[j])
  }

  /** The elements of `s` whose key is `k`, in their order in `s`. */
  function WithKey<T>(s: seq<T>, key: T -> int, k: int): seq<T> {
    if |s| == 0 then [] else (if key(s[0]) == k then [s[0]] else []) + WithKey(s[1..], key, k)
  }

  /**
   * Inserts `x` into `s` in front of the first element whose key is not
   * smaller than `x`'s, so that `x` precedes the equal-keyed elements of `s`.
   */
  function Insert<T>(x: T, s: seq<T>, key: T -> int): (r: seq<T>)
    ensures |r| == |s| + 1
    ensures multiset(r) == multiset(s) + multiset{x}
    ensures SortedBy(s, key) ==> SortedBy(r, key)
  {
    if |s| == 0 || key(x) <= key(s[0]) then [x] + s
    else
      var rest := Insert(x, s[1..], key);
      assert s == [s[0]] + s[1..];
      InsertHeadBound(x, s, rest, key);
      [s[0]] + rest
  }

  lemma InsertHeadBound<T>(x: T, s: seq<T>, rest: seq<T>, key: T -> int)
    requires |s| > 0 && key(s[0]) < key(x)
    requires multiset(rest) == multiset(s[1..]) + multiset{x}
    ensures SortedBy(s, key) ==> forall i :: 0 <= i < |rest| ==> key(s[0]) <= key(rest[i])
  {
    if SortedBy(s, key) {
      forall i | 0 <= i < |rest| ensures key(s[0]) <= key(rest[i]) {
        var y := rest[i];
        assert y in multiset(rest);
        if y != x {
          assert y in multiset(s[1..]);
          var j :| 0 <= j < |s[1..]| && s[1..][j] == y;
          assert s[j + 1] == y;
        }
      }
    }
  }

  /**
   * Stable sort ascending by `key` (insertion sort). A comparator
   * `(a, b) => f(b) - f(a)` is this sort with key `-f`.
   */
  function SortBy<T>(s: seq<T>, key: T -> int): (r: seq<T>)
    ensures |r| == |s|
    ensures multiset(r) == multiset(s)
    ensures SortedBy(r, key)
  {
    if |s| == 0 then []
    else
      assert s == [s[0]] + s[1..];
      Insert(s[0], SortBy(s[1..], key), key)
  }

  lemma {:induction false} InsertWithKey<T>(x: T, s: seq<T>, key: T -> int, k: int)
    ensures WithKey(Insert(x, s, key), key, k) == (if key(x) == k then [x] else []) + WithKey(s, key, k)
  {
    var r := Insert(x, s, key);
    if |s| == 0 || key(x) <= key(s[0]) {
      assert r == [x] + s;
      assert r[1..] == s;
    } else {
      var rest := Insert(x, s[1..], key);
      InsertWithKey(x, s[1..], key, k);
      assert r == [s[0]] + rest;
      assert r[1..] == rest;
      assert WithKey(s, key, k) == (if key(s[0]) == k then [s[0]] else []) + WithKey(s[1..], key, k);
      if key(x) == k {
        assert key(s[0]) != k;
      }
    }
  }

  /** Sorting is stable: the elements sharing any one key keep their relative order. */
  lemma {:induction false} SortByStable<T>(s: seq<T>, key: T -> int, k: int)
    ensures WithKey(SortBy(s, key), key, k) == WithKey(s, key, k)
  {
    if |s| > 0 {
      SortByStable(s[1..], key, k);
      InsertWithKey(s[0], SortBy(s[1..], key), key, k);
    }
  }

  /** Every element of the first `n` of a sorted sequence has a key no larger than any later one. */
  lemma PrefixKeysBelow<T>(s: seq<T>, key: T -> int, n: nat, x: T)
    requires SortedBy(s, key) && n <= |s|
    requires x in s[n..]
    ensures forall i :: 0 <= i < n ==> key(s[i]) <= key(x)
  {
    var j :| 0 <= j < |s[n..]| && s[n..][j] == x;
    assert s[n + j] == x;
  }
}

=== FILE: text.dfy ===
/**
 * The handful of JavaScript string operations the site relies on, restricted to
 * what the components actually use: ASCII case mapping, `String.prototype.trim`,
 * splitting on and joining with one separator character, and `replace` of the
 * first occurrence of one character.
 */
module Text {

  predicate IsUpperAscii(c: char) { 'A' <= c <= 'Z' }
  predicate IsLowerAscii(c: char) { 'a' <= c <= 'z' }
  predicate IsDigitAscii(c: char) { '0' <= c <= '9' }

  function ToLowerChar(c: char): char {
    if IsUpperAscii(c) then (c as int + 32) as char else c
  }

  function ToUpperChar(c: char): char {
    if IsLowerAscii(c) then (c as int - 32) as char else c
  }

  /** `toLowerCase`, restricted to the ASCII letters. */
  function ToLower(s: string): (r: string)
    ensures |r| == |s|
  {
    seq(|s|, i requires 0 <= i < |s| => ToLowerChar(s[i]))
  }

  /** `toUpperCase`, restricted to the ASCII letters. */
  function ToUpper(s: string): (r: string)
    ensures |r| == |s|
  {
    seq(|s|, i requires 0 <= i < |s| => ToUpperChar(s[i]))
  }

  /** `a.toLowerCase() === b.toLowerCase()`. */
  predicate EqualsIgnoreCase(a: string, b: string) {
    ToLower(a) == ToLower(b)
  }

  /**
   * The characters `String.prototype.trim` removes: the ECMAScript WhiteSpace
   * and LineTerminator code points.
   */
  predicate IsJsSpace(c: char) {
    c in JsSpaces
  }

  const JsSpaces: set<char> := {
    ' ', '\t', '\n', '\r', '\U{000B}', '\U{000C}', '\U{00A0}', '\U{1680}',
    '\U{2000}', '\U{2001}', '\U{2002}', '\U{2003}', '\U{2004}', '\U{2005}',
    '\U{2006}', '\U{2007}', '\U{2008}', '\U{2009}', '\U{200A}',
    '\U{2028}', '\U{2029}', '\U{202F}', '\U{205F}', '\U{3000}', '\U{FEFF}'
  }

  predicate AllSpace(s: string) {
    All(s, IsJsSpace)
  }

  /** Every character of `s` satisfies `p`. */
  predicate All(s: string, p: char -> bool) {
    forall i :: 0 <= i < |s| ==> p(s[i])
  }

  /**
   * `s.trim()`: `s` less its leading run of white space and the run of white
   * space at its end; what is left neither starts nor ends with white space
   * and is empty exactly when `s` is all white space.
   */
  function Trim(s: string): (r: string)
    ensures r == [] <==> AllSpace(s)
    ensures r == [] || (!IsJsSpace(r[0]) && !IsJsSpace(r[|r| - 1]))
    ensures var n := LeadingCount(s, IsJsSpace);
      && n + |r| <= |s|
      && r == s[n..n + |r|]
      && AllSpace(s[n + |r|..])
  {
    TrimBy(s, IsJsSpace)
  }

  /** Trimming for any set of white-space characters `p`. */
  function TrimBy(s: string, p: char -> bool): (r: string)
    ensures r == [] <==> All(s, p)
    ensures r == [] || (!p(r[0]) && !p(r[|r| - 1]))
    ensures var n := LeadingCount(s, p);
      && n + |r| <= |s|
      && r == s[n..n + |r|]
      && All(s[n + |r|..], p)
  {
    var n := LeadingCount(s, p);
    var m := TrailingCount(s[n..], p);
    assert s[n..][|s| - n - m..] == s[|s| - m..];
    TrimmedEmpty(s, p, n, m);
    TrimmedShape(s, p, n, m);
    s[n..|s| - m]
  }

  /** The length of the run of `p` characters that opens `s`: what `trimStart` removes. */
  function LeadingCount(s: string, p: char -> bool): (n: nat)
    ensures n <= |s| && All(s[..n], p)
    ensures n == |s| || !p(s[n])
  {
    if |s| > 0 && p(s[0]) then
      var k := LeadingCount(s[1..], p);
      assert s[..k + 1] == [s[0]] + s[1..][..k];
      k + 1
    else 0
  }

  /** The length of the run of `p` characters that closes `s`: what `trimEnd` removes. */
  function TrailingCount(s: string, p: char -> bool): (m: nat)
    ensures m <= |s| && All(s[|s| - m..], p)
    ensures m == |s| || !p(s[|s| - m - 1])
  {
    if |s| > 0 && p(s[|s| - 1]) then
      var k := TrailingCount(s[..|s| - 1], p);
      TrailingStep(s, p, k);
      k + 1
    else 0
  }

  /** A run of `k` closing `s` less its last character grows by one when that character is in `p`. */
  lemma TrailingStep(s: string, p: char -> bool, k: nat)
    requires k < |s| && p(s[|s| - 1])
    requires All(s[..|s| - 1][|s| - 1 - k..], p)
    requires k == |s| - 1 || !p(s[..|s| - 1][|s| - 1 - k - 1])
    ensures All(s[|s| - (k + 1)..], p)
    ensures k + 1 == |s| || !p(s[|s| - (k + 1) - 1])
  {
    var run, shorter := s[|s| - (k + 1)..], s[..|s| - 1][|s| - 1 - k..];
    forall i | 0 <= i < |run| ensures p(run[i]) {
      if i < k {
        assert run[i] == shorter[i];
      }
    }
  }

  /** What is left between the two runs is empty exactly when every character is white space. */
  lemma TrimmedEmpty(s: string, p: char -> bool, n: nat, m: nat)
    requires n <= |s| && All(s[..n], p) && (n == |s| || !p(s[n]))
    requires m <= |s| - n && All(s[|s| - m..], p)
    ensures s[n..|s| - m] == [] <==> All(s, p)
  {
  }

  /** The trimmed infix starts and ends with non-white space and only white space follows it. */
  lemma TrimmedShape(s: string, p: char -> bool, n: nat, m: nat)
    requires n <= |s| && (n == |s| || !p(s[n]))
    requires m <= |s| - n && All(s[|s| - m..], p)
    requires n + m == |s| || !p(s[|s| - m - 1])
    ensures var r := s[n..|s| - m];
      && (r == [] || (!p(r[0]) && !p(r[|r| - 1])))
      && r == s[n..n + |r|]
      && All(s[n + |r|..], p)
  {
  }

  /** `s.split(sep)` for a one-character separator: never empty, parts hold no `sep`. */
  function Split(s: string, sep: char): (parts: seq<string>)
    ensures |parts| >= 1
    ensures forall k :: 0 <= k < |parts| ==> sep !in parts[k]
  {
    if |s| == 0 then [""]
    else
      var rest := Split(s[1..], sep);
      if s[0] == sep then [""] + rest
      else [[s[0]] + rest[0]] + rest[1..]
  }

  /** `parts.join(sep)`. */
  function Join(parts: seq<string>, sep: char): string
    requires |parts| >= 1
  {
    if |parts| == 1 then parts[0] else parts[0] + [sep] + Join(parts[1..], sep)
  }

  /** Joining the parts of a split gives back the original string. */
  lemma {:induction false} JoinSplit(s: string, sep: char)
    ensures Join(Split(s, sep), sep) == s
  {
    if |s| > 0 {
      var rest := Split(s[1..], sep);
      JoinSplit(s[1..], sep);
      if s[0] != sep && |rest| > 1 {
        assert Split(s, sep)[1..] == rest[1..];
      }
    }
  }

  /** Splitting a join of separator-free parts gives back the parts. */
  lemma {:induction false} SplitJoin(parts: seq<string>, sep: char)
    requires |parts| >= 1
    requires forall k :: 0 <= k < |parts| ==> sep !in parts[k]
    ensures Split(Join(parts, sep), sep) == parts
  {
    if |parts| == 1 {
      SplitNoSeparator(parts[0], sep);
    } else {
      SplitJoin(parts[1..], sep);
      SplitPrefix(parts[0], Join(parts[1..], sep), sep);
      assert parts == [parts[0]] + parts[1..];
    }
  }

  lemma {:induction false} SplitNoSeparator(s: string, sep: char)
    requires sep !in s
    ensures Split(s, sep) == [s]
  {
    if |s| > 0 {
      SplitNoSeparator(s[1..], sep);
      assert [s[0]] + s[1..] == s;
    }
  }

  /** Splitting `p + [sep] + t` where `p` holds no separator. */
  lemma {:induction false} SplitPrefix(p: string, t: string, sep: char)
    requires sep !in p
    ensures Split(p + [sep] + t, sep) == [p] + Split(t, sep)
  {
    if |p| == 0 {
      assert p + [sep] + t == [sep] + t;
      assert ([sep] + t)[1..] == t;
    } else {
      assert (p + [sep] + t)[1..] == p[1..] + [sep] + t;
      SplitPrefix(p[1..], t, sep);
      assert [p[0]] + p[1..] == p;
    }
  }

  /** Position of the first `c` in `s`. */
  function IndexOf(s: string, c: char): (i: nat)
    requires c in s
    ensures i < |s| && s[i] == c && c !in s[..i]
  {
    if s[0] == c then 0 else IndexOf(s[1..], c) + 1
  }

  /** `s.replace(c, "")` with a one-character string pattern: drops the first `c` only. */
  function RemoveFirst(s: string, c: char): (r: string)
    ensures c !in s ==> r == s
    ensures c in s ==> r == s[..IndexOf(s, c)] + s[IndexOf(s, c) + 1..]
  {
    if |s| == 0 then s
    else if s[0] == c then s[1..]
    else
      var rest := RemoveFirst(s[1..], c);
      RemoveFirstStep(s, c, rest);
      [s[0]] + rest
  }

  lemma RemoveFirstStep(s: string, c: char, rest: string)
    requires |s| > 0 && s[0] != c
    requires c !in s[1..] ==> rest == s[1..]
    requires c in s[1..] ==> rest == s[1..][..IndexOf(s[1..], c)] + s[1..][IndexOf(s[1..], c) + 1..]
    ensures c !in s ==> [s[0]] + rest == s
    ensures c in s ==> [s[0]] + rest == s[..IndexOf(s, c)] + s[IndexOf(s, c) + 1..]
  {
    assert s == [s[0]] + s[1..];
    if c in s {
      assert c in s[1..];
      var j := IndexOf(s[1..], c);
      assert IndexOf(s, c) == j + 1;
      assert s[..j + 1] == [s[0]] + s[1..][..j];
      assert s[j + 2..] == s[1..][j + 1..];
    }
  }

  /** JavaScript's `a || b` on two strings: `a` unless it is empty. */
  function OrElse(a: string, b: string): (r: string)
    ensures r == "" <==> a == "" && b == ""
    ensures a != "" ==> r == a
    ensures a == "" ==> r == b
  {
    if a != "" then a else b
  }
}

=== FILE: watermark.dfy ===
/**
 * The watermark compositor `applyWatermark`: it draws a photograph onto a
 * canvas of the photograph's own size, then the studio logo on top of it,
 * scaled to a percentage of the photograph's width, at one of five anchors,
 * with a uniform alpha, and returns the canvas as a JPEG data URL. Every
 * failure falls back to the photograph's URL unchanged.
 *
 * The browser is a parameter: whether a 2D context can be created, and which
 * URLs decode to an image of which size. Pixels and the JPEG encoder are not
 * modelled; the canvas is described by its size and its list of draw calls.
 */
module Watermark {
  import opened Wrappers

  /** The settings record shared by the compositor and the admin settings form. */
  datatype Config = Config(enabled: bool, logoUrl: string, opacity: real, position: string, size: real)

  /** Width and height in pixels. */
  datatype Extent = Extent(width: real, height: real)

  /** The natural size of an image the browser managed to decode. */
  type Raster = e: Extent | e.width > 0.0 && e.height > 0.0 witness Extent(1.0, 1.0)

  /** What the surrounding browser offers the compositor. */
  datatype Browser = Browser(hasContext: bool, images: map<string, Raster>)

  /** The five cases of the position switch. */
  datatype Anchor = TopLeft | TopRight | BottomLeft | BottomRight | Center

  function AnchorName(a: Anchor): string {
    match a
    case TopLeft => "top-left"
    case TopRight => "top-right"
    case BottomLeft => "bottom-left"
    case BottomRight => "bottom-right"
    case Center => "center"
  }

  /** Which case of the switch a position string selects, if any. */
  function ParseAnchor(position: string): (r: Option<Anchor>)
    ensures r.Some? ==> AnchorName(r.value) == position
    ensures r.None? <==> forall a: Anchor :: AnchorName(a) != position
  {
    if position == "top-left" then Some(TopLeft)
    else if position == "top-right" then Some(TopRight)
    else if position == "bottom-left" then Some(BottomLeft)
    else if position == "bottom-right" then Some(BottomRight)
    else if position == "center" then Some(Center)
    else None
  }

  /** Distance in pixels between a corner anchor and the two nearest edges. */
  const Margin: real := 20.0

  /** The rectangle the logo is drawn into. */
  datatype Rect = Rect(x: real, y: real, width: real, height: real)

  /**
   * Where and how large the logo is drawn on a base image: `size` percent of
   * the base width, the height following the logo's aspect ratio, and the
   * origin given by the anchor (or the canvas origin for any other position).
   */
  function Placement(cfg: Config, base: Raster, logo: Raster): (r: Rect)
    ensures r.width == base.width * cfg.size / 100.0
    ensures r.height * logo.width == logo.height * r.width
    ensures ParseAnchor(cfg.position).None? ==> r.x == 0.0 && r.y == 0.0
  {
    var w := (base.width * cfg.size) / 100.0;
    var h := (logo.height / logo.width) * w;
    match ParseAnchor(cfg.position)
    case Some(TopLeft) => Rect(Margin, Margin, w, h)
    case Some(TopRight) => Rect(base.width - w - Margin, Margin, w, h)
    case Some(BottomLeft) => Rect(Margin, base.height - h - Margin, w, h)
    case Some(BottomRight) => Rect(base.width - w - Margin, base.height - h - Margin, w, h)
    case Some(Center) => Rect((base.width - w) / 2.0, (base.height - h) / 2.0, w, h)
    case None => Rect(0.0, 0.0, w, h)
  }

  /** Gaps between the logo rectangle and the four edges of the canvas. */
  function LeftGap(r: Rect): real { r.x }
  function TopGap(r: Rect): real { r.y }
  function RightGap(base: Raster, r: Rect): real { base.width - (r.x + r.width) }
  function BottomGap(base: Raster, r: Rect): real { base.height - (r.y + r.height) }

  /** The drawn logo keeps the logo's native height-to-width ratio. */
  lemma AspectRatioPreserved(cfg: Config, base: Raster, logo: Raster)
    requires cfg.size != 0.0
    ensures var r := Placement(cfg, base, logo);
      r.width != 0.0 && r.height / r.width == logo.height / logo.width
  {
    var r := Placement(cfg, base, logo);
    assert r.height == (logo.height / logo.width) * r.width;
  }

  /** Each corner anchor sits `Margin` pixels from the two edges it names. */
  lemma CornerMargins(cfg: Config, base: Raster, logo: Raster)
    ensures var r := Placement(cfg, base, logo);
      match ParseAnchor(cfg.position)
      case Some(TopLeft) => LeftGap(r) == Margin && TopGap(r) == Margin
      case Some(TopRight) => RightGap(base, r) == Margin && TopGap(r) == Margin
      case Some(BottomLeft) => LeftGap(r) == Margin && BottomGap(base, r) == Margin
      case Some(BottomRight) => RightGap(base, r) == Margin && BottomGap(base, r) == Margin
      case _ => true
  {
  }

  /** The centre anchor leaves equal gaps left and right, and top and bottom. */
  lemma CenterIsCentred(cfg: Config, base: Raster, logo: Raster)
    requires cfg.position == "center"
    ensures var r := Placement(cfg, base, logo);
      LeftGap(r) == RightGap(base, r) && TopGap(r) == BottomGap(base, r)
  {
  }

  /**
   * The value `globalAlpha` holds after assigning `a` to a fresh context:
   * the HTML canvas setter ignores values outside [0, 1], leaving the
   * initial 1.0.
   */
  function GlobalAlpha(a: real): (r: real)
    ensures 0.0 <= r <= 1.0
    ensures r == a <==> 0.0 <= a <= 1.0
  {
    if 0.0 <= a <= 1.0 then a else 1.0
  }

  /** One call on the 2D context, in the order the compositor makes them. */
  datatype DrawOp = DrawBase(x: real, y: real) | SetAlpha(alpha: real) | DrawLogo(dest: Rect)

  /** A canvas: its size and the draw calls made on it. */
  datatype Canvas = Canvas(width: real, height: real, ops: seq<DrawOp>)

  /** What the compositor returns: the input URL, or an encoded canvas. */
  datatype Rendered = Original(url: string) | Encoded(canvas: Canvas, mimeType: string, quality: real)

  const JpegMimeType: string := "image/jpeg"
  const JpegQuality: real := 0.92

  /** The canvas both watermark paths draw once both images have loaded. */
  function Composite(cfg: Config, base: Raster, logo: Raster): (c: Canvas)
    ensures c.width == base.width && c.height == base.height
    ensures |c.ops| == 3 && c.ops[0] == DrawBase(0.0, 0.0)
    ensures c.ops[1] == SetAlpha(GlobalAlpha(cfg.opacity)) && c.ops[2] == DrawLogo(Placement(cfg, base, logo))
  {
    Canvas(base.width, base.height, [DrawBase(0.0, 0.0), SetAlpha(GlobalAlpha(cfg.opacity)), DrawLogo(Placement(cfg, base, logo))])
  }

  /**
   * `applyWatermark(imageUrl, config)`. Disabled watermarking or an empty
   * logo URL short-circuits; a missing 2D context or an image that fails to
   * load is caught and also yields the input URL.
   */
  function ApplyWatermark(imageUrl: string, cfg: Config, browser: Browser): (r: Rendered)
    ensures !cfg.enabled || cfg.logoUrl == "" ==> r == Original(imageUrl)
    ensures r.Original? ==> r.url == imageUrl
    ensures r.Encoded? <==>
      cfg.enabled && cfg.logoUrl != "" && browser.hasContext
      && imageUrl in browser.images && cfg.logoUrl in browser.images
    ensures r.Encoded? ==>
      && r.mimeType == JpegMimeType && r.quality == JpegQuality
      && r.canvas.width == browser.images[imageUrl].width
      && r.canvas.height == browser.images[imageUrl].height
      && r.canvas.ops == [
           DrawBase(0.0, 0.0),
           SetAlpha(GlobalAlpha(cfg.opacity)),
           DrawLogo(Placement(cfg, browser.images[imageUrl], browser.images[cfg.logoUrl]))]
  {
    if !cfg.enabled || cfg.logoUrl == "" then Original(imageUrl)
    else if !browser.hasContext then Original(imageUrl)
    else if imageUrl !in browser.images then Original(imageUrl)
    else if cfg.logoUrl !in browser.images then Original(imageUrl)
    else
      var base := browser.images[imageUrl];
      var logo := browser.images[cfg.logoUrl];
      Encoded(Composite(cfg, base, logo), JpegMimeType, JpegQuality)
  }

  /** First worked example: a 1000x1000 photograph, a 2:1 logo at 30% in the bottom-right corner. */
  lemma ExampleBottomRight()
    ensures Placement(Config(true, "logo", 0.5, "bottom-right", 30.0), Extent(1000.0, 1000.0), Extent(200.0, 100.0))
         == Rect(680.0, 830.0, 300.0, 150.0)
  {
  }

  /** Second worked example: a 500x500 photograph, a square logo at 10% in the top-left corner. */
  lemma ExampleTopLeft()
    ensures Placement(Config(true, "logo", 0.5, "top-left", 10.0), Extent(500.0, 500.0), Extent(100.0, 100.0))
         == Rect(20.0, 20.0, 50.0, 50.0)
  {
  }
}

=== FILE: watermark_settings.dfy ===
/**
 * The admin watermark settings form: its default configuration, the live
 * preview it renders on a demo photograph, the one-field updates its
 * controls make, the ranges of its sliders and the guards on its buttons.
 */
module WatermarkSettings {
  import opened Wrappers
  import opened Text
  import opened Notices
  import opened Watermark

  /** The configuration the form starts from. */
  const DefaultConfig: Config := Config(true, "", 0.5, "bottom-right", 30.0)

  /** The photographs the preview can be rendered on. */
  const DemoImages: seq<string> := ["/portfolio/tattoo1.jpg", "/portfolio/tattoo2.jpg", "/portfolio/tattoo3.jpg"]

  /** The form's state; `logoPreview` is the data URL of a selected logo ("" when there is none). */
  datatype Settings = Settings(
    config: Config,
    logoFileSelected: bool,
    logoPreview: string,
    isUploading: bool,
    isSaving: bool)

  /** What one run of the preview generator does to the displayed preview. */
  datatype PreviewUpdate = Cleared | Kept | Shown(image: Rendered)

  /** The displayed preview after an update. */
  function ApplyPreviewUpdate(current: Option<Rendered>, u: PreviewUpdate): Option<Rendered> {
    match u
    case Cleared => None
    case Kept => current
    case Shown(image) => Some(image)
  }

  /** The default configuration, field by field. */
  lemma DefaultConfigValues()
    ensures DefaultConfig.enabled && DefaultConfig.logoUrl == "" && DefaultConfig.opacity == 0.5
    ensures ParseAnchor(DefaultConfig.position) == Some(BottomRight) && DefaultConfig.size == 30.0
  {
  }

  /**
   * `generateWatermarkedPreview(config, imageSrc)`. It clears the preview only
   * when neither a logo URL nor a selected logo exists, never looks at
   * `enabled`, and on a missing context or a failed load leaves the preview
   * as it was. The logo drawn is `config.logoUrl || logoPreview`.
   */
  function GeneratePreview(cfg: Config, logoPreview: string, imageSrc: string, browser: Browser): (r: PreviewUpdate)
    ensures r == Cleared <==> cfg.logoUrl == "" && logoPreview == ""
    ensures r.Shown? <==>
      (cfg.logoUrl != "" || logoPreview != "") && browser.hasContext
      && imageSrc in browser.images && OrElse(cfg.logoUrl, logoPreview) in browser.images
    ensures r.Shown? ==>
      r.image == Encoded(
        Composite(cfg, browser.images[imageSrc], browser.images[OrElse(cfg.logoUrl, logoPreview)]),
        JpegMimeType, JpegQuality)
  {
    if cfg.logoUrl == "" && logoPreview == "" then Cleared
    else if !browser.hasContext then Kept
    else if imageSrc !in browser.images then Kept
    else
      var logoSrc := OrElse(cfg.logoUrl, logoPreview);
      if logoSrc !in browser.images then Kept
      else Shown(Encoded(Composite(cfg, browser.images[imageSrc], browser.images[logoSrc]), JpegMimeType, JpegQuality))
  }

  /**
   * With watermarking enabled and a logo URL set, the preview draws exactly
   * what `applyWatermark` returns for the same photograph, and keeps the old
   * preview exactly when `applyWatermark` falls back to the photograph.
   */
  lemma PreviewMatchesApplyWatermark(cfg: Config, logoPreview: string, imageSrc: string, browser: Browser)
    requires cfg.enabled && cfg.logoUrl != ""
    ensures var a := ApplyWatermark(imageSrc, cfg, browser);
      var p := GeneratePreview(cfg, logoPreview, imageSrc, browser);
      (a.Encoded? ==> p == Shown(a)) && (a.Original? ==> p == Kept)
  {
  }

  /** The preview ignores the on/off switch. */
  lemma PreviewIgnoresEnabled(cfg: Config, logoPreview: string, imageSrc: string, browser: Browser)
    ensures GeneratePreview(cfg.(enabled := false), logoPreview, imageSrc, browser)
         == GeneratePreview(cfg.(enabled := true), logoPreview, imageSrc, browser)
  {
    if browser.hasContext && imageSrc in browser.images && OrElse(cfg.logoUrl, logoPreview) in browser.images {
      var base := browser.images[imageSrc];
      var logo := browser.images[OrElse(cfg.logoUrl, logoPreview)];
      CompositeIgnoresSwitches(cfg.(enabled := true), base, logo, false, cfg.logoUrl);
    }
  }

  /** The drawing depends on neither the on/off switch nor the logo URL. */
  lemma CompositeIgnoresSwitches(cfg: Config, base: Raster, logo: Raster, enabled: bool, logoUrl: string)
    ensures Composite(cfg.(enabled := enabled, logoUrl := logoUrl), base, logo) == Composite(cfg, base, logo)
  {
    assert Placement(cfg.(enabled := enabled, logoUrl := logoUrl), base, logo) == Placement(cfg, base, logo);
  }

  /**
   * The effect that regenerates the preview whenever the configuration, the
   * selected logo or the demo photograph changes: it runs only when some
   * logo exists, and hands the generator the selected logo in preference to
   * the configured URL.
   */
  function RegeneratePreview(s: Settings, active: nat, browser: Browser): (r: PreviewUpdate)
    requires active < |DemoImages|
    ensures s.config.logoUrl == "" && s.logoPreview == "" ==> r == Kept
    ensures r != Cleared
    ensures r.Shown? <==>
      (s.config.logoUrl != "" || s.logoPreview != "") && browser.hasContext
      && DemoImages[active] in browser.images && OrElse(s.logoPreview, s.config.logoUrl) in browser.images
    ensures r.Shown? ==>
      var logo := if s.logoPreview != "" then s.logoPreview else s.config.logoUrl;
      && DemoImages[active] in browser.images && logo in browser.images
      && r.image == Encoded(
           Composite(s.config, browser.images[DemoImages[active]], browser.images[logo]),
           JpegMimeType, JpegQuality)
  {
    if s.config.logoUrl != "" || s.logoPreview != "" then
      var cfg := s.config.(logoUrl := OrElse(s.logoPreview, s.config.logoUrl));
      var r := GeneratePreview(cfg, s.logoPreview, DemoImages[active], browser);
      if r.Shown? then
        CompositeIgnoresSwitches(s.config, browser.images[DemoImages[active]], browser.images[cfg.logoUrl], s.config.enabled, cfg.logoUrl);
        r
      else r
    else Kept
  }

  /** The changes the form's controls make to the configuration. */
  datatype Control =
    | TurnOn
    | TurnOff
    | SetOpacity(opacity: real)
    | SetSize(size: real)
    | SetPosition(position: string)

  /** `setConfig({ ...config, field: value })` for the control's one field. */
  function ApplyControl(cfg: Config, c: Control): (r: Config)
    ensures r.logoUrl == cfg.logoUrl
    ensures c.TurnOn? ==> r.enabled && r.(enabled := cfg.enabled) == cfg
    ensures c.TurnOff? ==> !r.enabled && r.(enabled := cfg.enabled) == cfg
    ensures c.SetOpacity? ==> r.opacity == c.opacity && r.(opacity := cfg.opacity) == cfg
    ensures c.SetSize? ==> r.size == c.size && r.(size := cfg.size) == cfg
    ensures c.SetPosition? ==> r.position == c.position && r.(position := cfg.position) == cfg
  {
    match c
    case TurnOn => cfg.(enabled := true)
    case TurnOff => cfg.(enabled := false)
    case SetOpacity(v) => cfg.(opacity := v)
    case SetSize(v) => cfg.(size := v)
    case SetPosition(p) => cfg.(position := p)
  }

  /**
   * Choosing a logo file: with a file the form records it and, once the file
   * reader yields a non-empty data URL, shows it as the logo preview.
   */
  function SelectLogoFile(s: Settings, dataUrl: Option<string>): (r: Settings)
    ensures dataUrl.None? ==> r == s
    ensures dataUrl.Some? ==> r.logoFileSelected && r.config == s.config
    ensures dataUrl.Some? ==> r.logoPreview == OrElse(dataUrl.value, s.logoPreview)
  {
    match dataUrl
    case None => s
    case Some(d) => s.(logoFileSelected := true, logoPreview := if d != "" then d else s.logoPreview)
  }

  /**
   * `handleUploadLogo`: without a selected file nothing changes and an error
   * is shown; otherwise the configured logo URL becomes the logo preview and
   * the file selection is cleared.
   */
  function UploadLogo(s: Settings): (r: (Settings, Toast))
    ensures !s.logoFileSelected ==> r.0 == s && r.1.Error?
    ensures s.logoFileSelected ==>
      && r.1.Success?
      && r.0.config == s.config.(logoUrl := s.logoPreview)
      && !r.0.logoFileSelected && !r.0.isUploading
      && r.0.logoPreview == s.logoPreview
  {
    if !s.logoFileSelected then (s, Error("Please select a logo file first"))
    else
      (s.(config := s.config.(logoUrl := s.logoPreview), logoFileSelected := false, isUploading := false),
       Success("Logo uploaded successfully"))
  }

  /** The "Upload Logo" button is enabled only with a file selected and no upload running. */
  predicate CanUpload(s: Settings) {
    s.logoFileSelected && !s.isUploading
  }

  /** The "Save" button is enabled only with a logo URL configured and no save running. */
  predicate CanSave(s: Settings) {
    !s.isSaving && s.config.logoUrl != ""
  }

  /** Neither the upload nor the save button can be pressed in a form with no logo at all. */
  lemma NoLogoNoButtons(s: Settings)
    requires !s.logoFileSelected && s.config.logoUrl == ""
    ensures !CanUpload(s) && !CanSave(s)
    ensures UploadLogo(s).0 == s
  {
  }

  /** The opacity slider's stops: 0.1 to 1 in steps of 0.05. */
  function OpacityStop(k: nat): (v: real)
    requires k <= 18
    ensures 0.1 <= v <= 1.0
  {
    0.1 + (k as real) * 0.05
  }

  /** The size slider's stops: 5 to 50 percent in steps of 1. */
  function SizeStop(k: nat): (v: real)
    requires k <= 45
    ensures 5.0 <= v <= 50.0
  {
    5.0 + (k as real)
  }

  /** Every opacity the slider can produce is kept by the canvas as the logo's alpha. */
  lemma OpacitySliderAlpha(cfg: Config, k: nat)
    requires k <= 18
    ensures GlobalAlpha(ApplyControl(cfg, SetOpacity(OpacityStop(k))).opacity) == OpacityStop(k)
  {
  }

  /**
   * Every size the slider can produce draws the logo between a twentieth and
   * a half of the photograph's width.
   */
  lemma SizeSliderWidth(cfg: Config, k: nat, base: Raster, logo: Raster)
    requires k <= 45
    ensures var r := Placement(ApplyControl(cfg, SetSize(SizeStop(k))), base, logo);
      base.width / 20.0 <= r.width <= base.width / 2.0
  {
    var v := SizeStop(k);
    var r := Placement(ApplyControl(cfg, SetSize(v)), base, logo);
    assert r.width == base.width * v / 100.0;
    assert base.width * 5.0 <= base.width * v <= base.width * 50.0;
  }

  /** The logo URL the simulated configuration load returns. */
  const SavedLogoUrl: string := "/logo-watermark.png"

  /** The configuration the simulated load returns: the defaults with the saved logo. */
  const SavedConfig: Config := DefaultConfig.(logoUrl := SavedLogoUrl)

  /**
   * The configuration-load effect, one second after it starts: the whole
   * configuration is replaced by the saved one, the logo preview by the saved
   * logo URL, and a preview of the saved configuration is generated on the
   * active photograph. The generator is handed the logo preview of the render
   * that started the effect; the saved logo URL takes precedence over it.
   */
  function LoadConfig(s: Settings, active: nat, browser: Browser): (r: (Settings, PreviewUpdate))
    requires active < |DemoImages|
    ensures r.0.config == SavedConfig && r.0.logoPreview == SavedLogoUrl
    ensures r.0.logoFileSelected == s.logoFileSelected && r.0.isUploading == s.isUploading && r.0.isSaving == s.isSaving
    ensures r.1 != Cleared
    ensures r.1.Shown? <==>
      browser.hasContext && DemoImages[active] in browser.images && SavedLogoUrl in browser.images
    ensures r.1.Shown? ==>
      r.1.image == Encoded(
        Composite(SavedConfig, browser.images[DemoImages[active]], browser.images[SavedLogoUrl]),
        JpegMimeType, JpegQuality)
  {
    (s.(config := SavedConfig, logoPreview := SavedLogoUrl),
     GeneratePreview(SavedConfig, s.logoPreview, DemoImages[active], browser))
  }

  /**
   * A click on preview thumbnail `index` while photograph `active` is shown.
   * `setActivePreviewImage(index)` with the value already held changes no
   * state, so React neither re-renders nor re-runs any effect: the form and the
   * preview stay as they are. Any other thumbnail changes `activePreviewImage`,
   * a dependency of the configuration-load effect, so once its delay has
   * passed the load runs again on the chosen photograph.
   */
  function SelectPreviewImage(s: Settings, active: nat, index: nat, browser: Browser): (r: (Settings, PreviewUpdate))
    requires active < |DemoImages| && index < |DemoImages|
    ensures index == active ==> r.0 == s && r.1 == Kept
    ensures index != active ==> r.0.config == SavedConfig && r.0.logoPreview == SavedLogoUrl
    ensures index != active ==>
      r.0.logoFileSelected == s.logoFileSelected && r.0.isUploading == s.isUploading && r.0.isSaving == s.isSaving
    ensures r.1 != Cleared
    ensures index != active ==>
      (r.1.Shown? <==> browser.hasContext && DemoImages[index] in browser.images && SavedLogoUrl in browser.images)
    ensures r.1.Shown? ==>
      && index != active
      && r.1.image == Encoded(
        Composite(SavedConfig, browser.images[DemoImages[index]], browser.images[SavedLogoUrl]),
        JpegMimeType, JpegQuality)
  {
    if index == active then (s, Kept) else LoadConfig(s, index, browser)
  }

  /**
   * A click on another thumbnail discards unsaved work: whatever the controls
   * set and whatever logo was selected, the form ends up exactly as if nothing
   * had been changed.
   */
  lemma ThumbnailDiscardsEdits(s: Settings, cfg: Config, logoPreview: string, active: nat, index: nat, browser: Browser)
    requires active < |DemoImages| && index < |DemoImages| && index != active
    ensures SelectPreviewImage(s.(config := cfg, logoPreview := logoPreview), active, index, browser)
         == SelectPreviewImage(s, active, index, browser)
  {
  }

  /** In particular a control change made before a click on another thumbnail is undone by it. */
  lemma ThumbnailUndoesControl(s: Settings, c: Control, active: nat, index: nat, browser: Browser)
    requires active < |DemoImages| && index < |DemoImages| && index != active
    ensures SelectPreviewImage(s.(config := ApplyControl(s.config, c)), active, index, browser)
         == SelectPreviewImage(s, active, index, browser)
  {
    ThumbnailDiscardsEdits(s, ApplyControl(s.config, c), s.logoPreview, active, index, browser);
  }

  /**
   * A click on the thumbnail already shown keeps unsaved work: a control change
   * survives it, and it differs from the click on any other thumbnail whenever
   * the change moved the configuration away from the saved one.
   */
  lemma ActiveThumbnailKeepsControl(s: Settings, c: Control, active: nat, browser: Browser)
    requires active < |DemoImages|
    ensures var edited := s.(config := ApplyControl(s.config, c));
      && SelectPreviewImage(edited, active, active, browser).0.config == ApplyControl(s.config, c)
      && (ApplyControl(s.config, c) != SavedConfig ==>
            forall index :: 0 <= index < |DemoImages| && index != active ==>
              SelectPreviewImage(edited, active, index, browser).0.config
              != SelectPreviewImage(edited, active, active, browser).0.config)
  {
  }
}

=== FILE: wrappers.dfy ===
/** Optional values: the model's stand-in for JavaScript's `undefined`/`null`. */
module Wrappers {

  datatype Option<+T> = None | Some(value: T) {

    /** The wrapped value, or `default` when there is none (JavaScript's `x ?? default`). */
    function GetOr(default: T): T {
      match this
      case Some(v) => v
      case None => default
    }
  }
}
